=== FILE: README.md ===
# Dog store core, modelled in Dafny

This project models the logic of the dog store's web shop: the Express/Mongoose
backend that books dog vaccinations, takes orders, issues one-time passwords and
keeps user accounts, and the pure helpers of its React front end (the cart, the
search page, the product page's booking form, the vaccination scheduling page and
the confirmation page's time display).

Every backend operation is a pure function from the collection before the call to
the collection after it and the response (`Reply(store, result)`), so "an error
leaves the collection unchanged" is part of each contract. Collections are
`Tables.Table`: a map from id to document plus a creation counter. A document's
id is the counter's value when it was created, so "newest first" (`sort({
createdAt: -1 })`) is descending id. Mongoose's schema checks at save time
(`required`, `enum`, `default`) are the `...Doc` functions of `BookingModel`. A
request the schema refuses is answered with the controller's 500 error.

Layout: one module per source file, plus shared helpers.

- `Wrappers`: Option and Result.
- `Text`: `includes`, ASCII lower-casing, digits, decimal rendering and `parseInt`, `split` and `join`.
- `Fields`: JavaScript truthiness of body fields and the `missingFields.push` idiom.
- `Tables`: the store.
- `Seqs`: `filter` on sequences.

The headline property is `BookingInvariant`. No two bookings are `Scheduled` in
the same date, time and center, and create, cancel, delete and a fully
rescheduling update each keep that true. Counterexample lemmas show how a partial
reschedule or a status-only update can break it.

Two behaviours of the code are easy to misread, and the model keeps them as
written:

- The code is inconsistent about which bookings hold a slot. The conflict query
  filters on `status: 'Scheduled'`, while cancel also treats `Confirmed` as
  active. So a `Confirmed` booking does not block its slot
  (`BookingInvariant.ConfirmedDoesNotBlock`, `ScheduledBesideConfirmed`).
- Order update runs no validators, so it stores any status text
  (`Orders.UpdateStoresUnknownStatus`).

## Model

| member | source | states |
|---|---|---|
| BookingModel.StatusNames | Backend/model/VaccinationBooking.model.js:28-32 | the status enum accepts exactly the five names "Scheduled", "Confirmed", "Completed", "Cancelled", "No-show", each meaning its own state |
| BookingModel.BehaviourNames | Backend/model/VaccinationBooking.model.js:14-18 | the behaviour enum accepts exactly "Friendly", "Playful" and "Aggressive" |
| BookingModel.PatientDoc | Backend/model/VaccinationBooking.model.js:4-10 | a patient is stored iff name, phoneNumber, city and address are non-empty; specialInstructions is optional and kept as given |
| BookingModel.DogDoc | Backend/model/VaccinationBooking.model.js:11-19 | a dog is stored iff name and breed are non-empty and behaviour is one of the enum's names |
| BookingModel.VaccineDoc | Backend/model/VaccinationBooking.model.js:20-23 | a vaccine entry is stored iff it has a non-empty name and a dose number, and it is stored as exactly that name and dose |
| BookingModel.VaccinesDoc | Backend/model/VaccinationBooking.model.js:20-23 | the array is stored iff every entry is valid, entry by entry, and the schema alone accepts an empty array |
| BookingModel.EmptyVaccinesAccepted | Backend/model/VaccinationBooking.model.js:20-23 | the schema itself does not require a non-empty vaccine list |
| Bookings.TopLevelMissingExact | Backend/controller/VaccinationBooking.controller.js:36-49 | the top-level missing list is exactly the absent fields, in the order patient, dog, vaccines, appointmentDate, appointmentTime, vaccinationCenter |
| Bookings.ValidateCreate | Backend/controller/VaccinationBooking.controller.js:27-83 | passing validation implies the email, all six top-level fields and a non-empty vaccine array are present |
| Bookings.ValidateCreateNoneIff | Backend/controller/VaccinationBooking.controller.js:27-83 | validation passes iff the email, the top-level fields, the four patient fields, the three dog fields and a non-empty vaccine array are all present (both directions) |
| Bookings.Create | Backend/controller/VaccinationBooking.controller.js:14-119 | a missing email gives "Email is required" first. Any error leaves the store unchanged. A success adds exactly one new id, Scheduled, in the requested slot, with other bookings unchanged. The new booking stores the request's patient, dog and vaccines as the schema reads them, with totalAmount = the given amount or 0. SlotTaken iff validation passed and a Scheduled booking holds the slot |
| Bookings.CreateSucceedsIff | Backend/controller/VaccinationBooking.controller.js:14-119 | create succeeds iff every field the controller and the schema require is present and valid and no Scheduled booking holds the slot |
| Bookings.CreateStagesInOrder | Backend/controller/VaccinationBooking.controller.js:51-83 | the patient stage reports only once the top-level fields pass, the dog stage only once the patient fields pass, the vaccine check last; each stage reports exactly its own empty fields |
| Bookings.GetById | Backend/controller/VaccinationBooking.controller.js:122-132 | returns the stored booking iff the id exists, otherwise 404 |
| Bookings.ListAll | Backend/controller/VaccinationBooking.controller.js:4-11 | lists every stored booking exactly as stored, newest first |
| Bookings.ListByUser | Backend/controller/VaccinationBooking.controller.js:203-221 | an empty email gives 400; otherwise exactly the bookings with that email, as stored, newest first |
| Bookings.ApplyUpdate | Backend/controller/VaccinationBooking.controller.js:165-177 | each supplied field is stored: patient, dog and vaccines as the schema reads them, and date, time, center and status as given. Absent fields are kept, and userEmail and totalAmount never change. The validators refuse exactly when some supplied field fails its schema rule: a bad patient, dog or vaccine list, a status outside the enum, or an empty date, time or center |
| Bookings.Update | Backend/controller/VaccinationBooking.controller.js:135-187 | the conflict check, excluding the booking itself, runs first and only when date, time and center are all supplied. The validators come next, and a refused update is a 500 even for an unknown id. Then 404 iff the id is absent. Errors leave the store unchanged, and a success replaces only that booking |
| Bookings.Cancel | Backend/controller/VaccinationBooking.controller.js:224-250 | 404 iff the id is absent. 400 naming the current status iff that status is neither Scheduled nor Confirmed. Otherwise only that booking's status changes, to Cancelled |
| Bookings.Delete | Backend/controller/VaccinationBooking.controller.js:190-200 | removes exactly that id, or answers 404 and changes nothing |
| BookingInvariant.CreatePreserves | Backend/controller/VaccinationBooking.controller.js:86-112 | create keeps "at most one Scheduled booking per slot" |
| BookingInvariant.UpdateFullyRescheduledPreserves | Backend/controller/VaccinationBooking.controller.js:148-177 | an update naming date, time and center keeps the invariant |
| BookingInvariant.CancelPreserves | Backend/controller/VaccinationBooking.controller.js:224-250 | cancel keeps the invariant |
| BookingInvariant.DeletePreserves | Backend/controller/VaccinationBooking.controller.js:190-200 | delete keeps the invariant |
| BookingInvariant.PartialRescheduleCanDoubleBook | Backend/controller/VaccinationBooking.controller.js:148-177 | an update naming only the center moves a booking onto a held slot unchecked, leaving two Scheduled bookings in one slot |
| BookingInvariant.StatusOnlyUpdateCanDoubleBook | Backend/controller/VaccinationBooking.controller.js:148-177 | setting a cancelled booking back to Scheduled is unchecked and can double-book its slot |
| BookingInvariant.SampleRequestValid | Backend/controller/VaccinationBooking.controller.js:100-109 | a complete request passes validation and builds the expected Scheduled document with amount 0 |
| BookingInvariant.ConfirmedDoesNotBlock | Backend/controller/VaccinationBooking.controller.js:86-91 | a Confirmed booking in a slot does not stop a new booking of it |
| BookingInvariant.ScheduledBesideConfirmed | Backend/controller/VaccinationBooking.controller.js:86-112 | a create can leave a Scheduled and a Confirmed booking in one slot, both active for cancel |
| BookingInvariant.CancelReleasesSlot | Backend/controller/VaccinationBooking.controller.js:224-250 | after a booking is cancelled another user can book its slot, while before that the slot is refused |
| BookingInvariant.UpdateExcludesSelf | Backend/controller/VaccinationBooking.controller.js:148-155 | re-sending a booking's own slot on update is never refused because of the booking itself |
| BookingInvariant.UpdateOntoHeldSlotRefused | Backend/controller/VaccinationBooking.controller.js:148-161 | a full reschedule onto a slot another booking holds is refused and changes nothing |
| BookingInvariant.CancelCompletedRefused | Backend/controller/VaccinationBooking.controller.js:233-238 | a Completed booking cannot be cancelled, the message names its status, and nothing changes |
| OrderModel.OrderStatusNames | Backend/model/order.model.js:22-26 | the order status enum accepts exactly Pending, Processing, Shipped, Delivered, Cancelled |
| Orders.TopLevelMissingExact | Backend/controller/order.controller.js:27-37 | the missing list is exactly the absent items among customer, products, total, in that order, with a falsy total counted as missing |
| Orders.CustomerStageExact | Backend/controller/order.controller.js:40-53 | the customer stage reports nothing iff name, phoneNumber, city and colony are all present |
| Orders.ValidateCreate | Backend/controller/order.controller.js:18-60 | passing validation implies email, customer with its four fields, a non-zero total and a non-empty product array |
| Orders.Create | Backend/controller/order.controller.js:14-78 | a missing email is rejected first. Errors leave the store unchanged. A success adds exactly one order carrying the given customer, products, total and email with status "Pending", and that order is well formed. The save succeeds iff validation passed and every line has name, quantity and price |
| Orders.ZeroTotalIsMissing | Backend/controller/order.controller.js:30 | a total of 0 is reported as a missing "total" and nothing is stored |
| Orders.CustomerStageAfterTopLevel | Backend/controller/order.controller.js:40-60 | the customer stage runs only after the top-level fields pass, and the product-array check only after the customer stage |
| Orders.GetById | Backend/controller/order.controller.js:81-91 | returns the stored order iff the id exists, otherwise 404 |
| Orders.ListAll | Backend/controller/order.controller.js:4-11 | every stored order, as stored, newest first |
| Orders.ListByUser | Backend/controller/order.controller.js:129-147 | an empty email gives 400; otherwise exactly that user's orders, newest first |
| Orders.ApplyUpdate | Backend/controller/order.controller.js:94-104 | each supplied field replaces the stored one, the others and the email are kept |
| Orders.Update | Backend/controller/order.controller.js:94-113 | 404 iff the id is absent, with the store unchanged; otherwise only that order changes |
| Orders.Delete | Backend/controller/order.controller.js:116-126 | removes exactly that id, or answers 404 and changes nothing; a collection of schema-valid orders stays valid |
| Orders.CreateKeepsWellFormed | Backend/model/order.model.js:3-27 | create keeps every stored order valid for the schema |
| Orders.UpdateStoresUnknownStatus | Backend/controller/order.controller.js:94-104 | an update with status "Lost" succeeds and leaves an order whose status is outside the enum |
| Otp.GenerateOtp | Backend/controller/otp.controller.js:17 | the code is six decimal digits with no leading zero, whose value is 100000 + draw, so it lies in [100000, 999999] |
| Otp.SendOtp | Backend/controller/otp.controller.js:38-55 | the email's entry is overwritten with the new code expiring 600000 ms from now, whether or not the mail goes out; the answer is 200 iff it did, else 500 |
| Otp.VerifyOtp | Backend/controller/otp.controller.js:58-73 | never changes the store; 200 iff an entry exists, the code matches and now <= expiresAt; 400 when there is no entry, a different code, or a time past expiry |
| Otp.SentCodeLifetime | Backend/controller/otp.controller.js:42-70 | a freshly sent code verifies at time t iff t <= now + 600000, so it is still valid at the expiry instant |
| Otp.VerifyRepeatable | Backend/controller/otp.controller.js:58-73 | a verified code verifies again at any later time up to its expiry |
| Otp.ResendReplacesCode | Backend/controller/otp.controller.js:42 | after a second send, the first code no longer verifies |
| Otp.SendLeavesOthers | Backend/controller/otp.controller.js:42 | sending to one email leaves every other email's entry as it was |
| Users.Signup | Backend/controller/user.controller.js:6-24 | a missing field gives 400 and an existing email "User already exists", both with no change. Success iff all fields are present and the email is new. Exactly one user is added with password hash(password). Other users are unchanged |
| Users.Login | Backend/controller/user.controller.js:27-52 | succeeds iff the user exists and hash(password) matches the stored hash; returns name, email and role only |
| Users.LoginHidesExistence | Backend/controller/user.controller.js:33-37 | an unknown email and a wrong password give the same "Invalid credentials" answer |
| Users.SignupThenLogin | Backend/controller/user.controller.js:6-52 | after signing up, logging in with the same password returns the new user's view |
| Users.ForgotPassword | Backend/controller/user.controller.js:55-83 | 400 without an email, 404 for an unknown email, each leaving the codes unchanged; otherwise the email's entry becomes a fresh code expiring 1800000 ms from now |
| Users.ForgotPasswordCodeLifetime | Backend/controller/user.controller.js:67-72 | the reset code verifies at time t iff t <= now + 1800000, three times the sendOtp lifetime |
| Users.ResetPassword | Backend/controller/user.controller.js:86-107 | 400 without email or password, 404 for an unknown email, each with no change; otherwise only that user's password changes, to hash(password) |
| Users.ResetThenLogin | Backend/controller/user.controller.js:86-107 | after a reset, the new password logs in and the old one is refused |
| Users.FindUserByEmail | Backend/controller/user.controller.js:110-132 | returns the user's name, email and role iff the email is known, with the `_id` left out; 400 or 404 otherwise |
| Users.AllUsers | Backend/controller/user.controller.js:135-143 | every user, with the password left out |
| Users.CheckEmail | Backend/controller/user.controller.js:146-158 | 400 iff no email; every non-empty email gets an answer, and exists is true iff the email has an account |
| Users.CheckEmailAgreesWithSignup | Backend/controller/user.controller.js:146-158 | checkEmail reports an email as existing iff signup with it would answer "User already exists" |
| Cart.AddToCart | frontend/src/context/CartContext.jsx:21-31 | a present id gets one more unit with the length unchanged, a new id is appended with quantity 1 whatever it carried, every other line is unchanged, and ids stay unique |
| Cart.RemoveFromCart | frontend/src/context/CartContext.jsx:33-35 | no line with that id remains, every other line is kept in order, and ids stay unique |
| Cart.ClearCart | frontend/src/context/CartContext.jsx:37-39 | the empty cart, whose total is 0 |
| Cart.TotalAppend | frontend/src/context/CartContext.jsx:41 | the total of two carts put together is the sum of their totals |
| Cart.TotalAfterAdd | frontend/src/context/CartContext.jsx:21-41 | adding an item raises the total by one unit price: the stored line's for a present id, the item's for a new one |
| Cart.PriceOfUnique | frontend/src/context/CartContext.jsx:23-27 | with unique ids, the price added for an id is its one line's price |
| Cart.TotalAfterRemove | frontend/src/context/CartContext.jsx:33-41 | removing an id lowers the total by exactly what its lines contributed |
| Cart.RunKeepsUnique | frontend/src/context/CartContext.jsx:21-39 | any sequence of add, remove and clear keeps ids unique |
| Search.SortByPrice | frontend/src/pages/SearchResults.jsx:53-59 | the result is a permutation of the input, ordered by price ascending or descending |
| Search.Matching | frontend/src/pages/SearchResults.jsx:41-50 | keeps exactly the products whose lowercased name, description or category contains the lowercased query and whose price is within both bounds, in input order, each as many times as it occurs in the input |
| Search.TwoFiltersAreMatching | frontend/src/pages/SearchResults.jsx:41-50 | the text filter followed by the price filter equals one filter by both tests |
| Search.FilterAndSort | frontend/src/pages/SearchResults.jsx:39-69 | output members are exactly the matching products, a permutation of them. Relevance keeps an order-preserving subsequence of the input. priceAsc is non-decreasing and priceDesc non-increasing in price |
| Search.RelevanceKeepsOrder | frontend/src/pages/SearchResults.jsx:63-65 | in relevance order, filtering a concatenation filters each part in turn |
| Search.EmptyQueryMatchesAll | frontend/src/pages/SearchResults.jsx:41-45 | an empty query keeps every product |
| Search.QueryCaseInsensitive | frontend/src/pages/SearchResults.jsx:41-45 | upper and lower case in the query make no difference |
| Search.NormaliseRange | frontend/src/pages/SearchResults.jsx:98-107 | 0 <= lo <= hi, and {lo, hi} = {max(0, min), max(0, max)} |
| Search.NormaliseIdempotent | frontend/src/pages/SearchResults.jsx:98-107 | normalising a normalised range changes nothing |
| ProductModal.ResolveEmail | frontend/src/components/ProductModal.jsx:40-56 | user.email when it is a non-empty string. Otherwise the first string property containing '@' and '.'. None iff there is no such property |
| ProductModal.EmailState | frontend/src/components/ProductModal.jsx:35-59 | the email is re-resolved whenever a user is present and kept while nobody is |
| ProductModal.PhoneIgnoresSeparators | frontend/src/components/ProductModal.jsx:122-126 | non-digit characters anywhere in the phone number never change whether it is accepted |
| ProductModal.Submit | frontend/src/components/ProductModal.jsx:83-153 | no user means login is asked for, and a user with no email means an alert. Otherwise the reported labels are the empty inputs, in the fixed nine-label order. A request is sent iff all checks pass and the phone has exactly ten digits. It carries one vaccine (productName, dose 1), totalAmount = productPrice or 0, and center defaulting to "Main Center". The patient and dog are the form's inputs, the time is sent as entered and the date as its ISO form |
| ProductModal.FillOutNamesEmptyInputs | frontend/src/components/ProductModal.jsx:100-119 | a label is reported iff its input is empty |
| ProductModal.NothingMissingMeansFilled | frontend/src/components/ProductModal.jsx:100-119 | nothing is reported iff all nine inputs are filled |
| ProductModal.SentRequestPassesValidation | frontend/src/components/ProductModal.jsx:131-153 | every request the form sends passes the booking endpoint's presence checks, given a non-empty center |
| ProductModal.SentRequestBooks | frontend/src/components/ProductModal.jsx:131-153 | with a product name, a behaviour from the menu and a free slot, the sent request is booked at the price given or 0 |
| ScheduleVaccination.VaccinePrice | frontend/src/pages/ScheduleVaccination.jsx:25-32 | 50 iff the product name contains "Basic", 75 otherwise |
| ScheduleVaccination.BookingData | frontend/src/pages/ScheduleVaccination.jsx:72-86 | with a signed-in user, the body has no dog and carries user.email, the computed price as totalAmount and one vaccine with dose 1. A missing user throws before sending |
| ScheduleVaccination.PageNeverBooks | frontend/src/pages/ScheduleVaccination.jsx:72-89 | whatever the store holds, the endpoint refuses the page's request. With an email present, the refusal is the missing-fields error naming "dog" |
| ScheduleVaccination.BookingDataWithDog | frontend/src/pages/ScheduleVaccination.jsx:72-86 | the same body with the dog's details added |
| ScheduleVaccination.PageWithDogBooks | frontend/src/pages/ScheduleVaccination.jsx:72-89 | with the dog added, a filled form for a free slot is booked at the page's price under the user's email |
| ScheduleVaccination.ResponseOf | Backend/controller/VaccinationBooking.controller.js:28-97 | an endpoint error carries its status code and message, and missingFields exactly for the missing-field errors |
| ScheduleVaccination.ErrorText | frontend/src/pages/ScheduleVaccination.jsx:98-112 | no response gives the connection message. A 400 whose message contains "time slot is already booked" gives the slot message. A 400 with no message throws in the handler, so no error is shown. Any other response with a `missingFields` list shows "Missing required fields: " and the list joined with ", ". Otherwise the message is shown, or the default when it is empty |
| ScheduleVaccination.SlotTakenShownAsIs | frontend/src/pages/ScheduleVaccination.jsx:103-104 | the endpoint's slot-taken message contains the phrase the page looks for, so it is shown as the same sentence |
| ScheduleVaccination.NoSlotPhrase | Backend/controller/VaccinationBooking.controller.js:44-75 | none of the three missing-field messages contains the slot phrase |
| ScheduleVaccination.MissingFieldsShown | frontend/src/pages/ScheduleVaccination.jsx:102-106 | every missing-fields answer of create is shown as "Missing required fields: " and the names joined with ", " |
| ScheduleVaccination.PageShowsDogMissing | frontend/src/pages/ScheduleVaccination.jsx:72-106 | for a signed-in user with an email, the page always ends up showing a missing-fields message whose list names "dog" |
| BookingConfirm.JsRem | frontend/src/pages/BookingConfirm.jsx:222 | JavaScript's `%`: a = b·trunc(a/b) + r, with r taking the sign of a |
| BookingConfirm.Hour12 | frontend/src/pages/BookingConfirm.jsx:222 | NaN gives 12. For hours >= 0 the result is hour mod 12 with 0 replaced by 12, within 1..12 |
| BookingConfirm.FormatTime | frontend/src/pages/BookingConfirm.jsx:217 | an absent or empty time string gives "" |
| BookingConfirm.FormatHourMinutes | frontend/src/pages/BookingConfirm.jsx:216-224 | for "hours:minutes", the display is the 12-hour hour, the minutes unchanged, and PM iff the hour is >= 12 |
| BookingConfirm.FormatClock | frontend/src/pages/BookingConfirm.jsx:216-224 | for hours 0..23 the displayed hour is in 1..12 (0 and 12 show as 12) and the suffix is PM exactly from 12 on |
| BookingConfirm.ShowsSlot | frontend/src/pages/BookingConfirm.jsx:216-224 | a two-digit "hh:00" displays as the 12-hour hour, ":00" and its suffix |
| BookingConfirm.TimeOptionDisplaysAsShown | frontend/src/components/ProductModal.jsx:357-365 | each of the seven menu values 09:00 … 16:00 is displayed by the confirmation page as the text the menu shows for it |
| Text.ContainsMiddle | frontend/src/pages/ScheduleVaccination.jsx:103 | `includes` finds a string inside anything built around it |
| Text.ParseIntRoundTrip | frontend/src/pages/BookingConfirm.jsx:220 | `parseInt` reads back any rendered integer |
| Text.DecimalRoundTrip | Backend/controller/otp.controller.js:17 | reading a rendered natural number gives the number back |
| Text.LowerIdempotent | frontend/src/pages/SearchResults.jsx:42-44 | lower-casing twice is lower-casing once |
| Text.JoinSplit | frontend/src/pages/BookingConfirm.jsx:219 | splitting on a separator and joining with it gives the string back |
| Fields.MissingMember | Backend/controller/VaccinationBooking.controller.js:36-42 | a name is in a missing list iff its check failed |
| Tables.NewestFirst | Backend/controller/VaccinationBooking.controller.js:215 | the listed rows are stored rows passing the filter, in strictly descending id order, and none is left out |

## Left out

- Request bodies: every request field is taken to be a string, or absent. The source does not check types. A numeric `otp` fails the strict comparison in verifyOtp, and an object such as `{"$gt": ""}` for an email reaches `findOne` as a query operator.
- Users.FindUserByEmail: users carry no id in the model, so the `_id` the answer includes is left out.
- Concurrency: the check-then-insert in create is not atomic in the source. The model runs one request at a time, so it says nothing about two simultaneous creates for one slot.
- ObjectId generation and the `createdAt` timestamp: both are represented by the creation counter.
- The date cast of `appointmentDate`: dates are compared as the strings sent.
- Database and network failures: the 500 answers other than schema refusal are not modelled.
- The `nameAsc` sort: `localeCompare` has no simple model.
- Lower-casing: only ASCII letters are folded.
- `parseInt`: leading whitespace is not skipped.
- Distance and travel-time estimates: the haversine computation is floating-point.
- React rendering, navigation, alerts, local storage and the fetch/axios calls: only what the handlers compute is modelled.
- bcrypt: a hash function parameter stands for it, and the salt is not modelled.
- nodemailer: the send result is a boolean parameter.
- `Math.random`: a draw parameter in [0, 900000) stands for it.
- `Backend/model/user.model.js` is not part of this model: a new user's role is a parameter (`defaultRole`).
- Booking and order update with an undefined field: following `findByIdAndUpdate`'s handling of undefined, an absent field keeps the stored value. Booking update passes `{ patient, dog, vaccines, status, appointmentDate, appointmentTime, vaccinationCenter }` and order update `{ customer, products, total, status }`, each with undefined members (`Bookings.ApplyUpdate`, `Orders.ApplyUpdate`).
- Order update: cast errors on type mismatches are not modelled.
- ProductModal.IsoDate: models `new Date(d).toISOString()` only for the date input's YYYY-MM-DD value, as midnight UTC.
- ProductModal.ResolveEmail: a truthy `user.email` that is not a string is treated as absent.
- ProductModal.ResolveEmail: `Object.keys` is taken in the order given, without JavaScript's move of integer-like keys to the front.
- Search.FilterAndSort: the stability of the price sort is not stated.
- Search.FilterAndSort: the handlers' use of the price range and sort key from the previous render is not modelled; the function takes the current ones.
- Search.NormaliseRange: `Number(min)` of a non-numeric input (NaN) is not modelled; bounds are integers.
- Cart.Total: prices are whole numbers, not floating point.
- ScheduleVaccination.BookingData: an undefined `productName`, which throws before the request is built, is not modelled.
- ScheduleVaccination.BookingData: the vaccine's `price` field, which the schema drops, is not modelled.
- The product controller, the admin pages, the authentication context and the remaining pages: they are not part of this model.

## Findings

| source | as written | input that shows it | evidently intended | confidence | as-written member | corrected member |
|---|---|---|---|---|---|---|
| frontend/src/pages/ScheduleVaccination.jsx:72-86 | the booking body has no `dog` field, while the endpoint lists a missing `dog` (Backend/controller/VaccinationBooking.controller.js:38) and the schema requires its name, breed and behaviour | any signed-in user with an email, any filled form: the answer is "Missing required fields" naming dog | the body carries the dog's name, breed and behaviour, as the product page's form does, so that a filled form for a free slot is booked | not executed; high | ScheduleVaccination.PageNeverBooks | ScheduleVaccination.PageWithDogBooks |

=== FILE: booking_confirm.dfy ===
/** The confirmation page's 24-hour to 12-hour time display. */
module BookingConfirm {
  import opened Wrappers
  import opened Fields
  import opened Text
  import ProductModal

  /** JavaScript's `a / b` truncated toward zero, for b > 0. */
  function TruncQuot(a: int, b: int): int
    requires b > 0
  {
    if a >= 0 then a / b else -((-a) / b)
  }

  /** JavaScript's `a % b` for b > 0: what is left after taking away the
      quotient truncated toward zero, so it takes the sign of `a`. */
  function JsRem(a: int, b: int): (r: int)
    requires b > 0
    ensures a == b * TruncQuot(a, b) + r
    ensures a >= 0 ==> 0 <= r < b
    ensures a < 0 ==> -b < r <= 0
  {
    if a >= 0 then a % b
    else
      var q := (-a) / b;
      assert -a == b * q + (-a) % b;
      assert b * (-q) == -(b * q);
      -((-a) % b)
  }

  /** `hour % 12 || 12` where NaN, the result of an unparsable hour, is
      falsy like 0. */
  function Hour12(hour: Option<int>): (r: int)
    ensures hour.None? ==> r == 12
    ensures hour.Some? && 0 <= hour.value ==> 1 <= r <= 12
    ensures hour.Some? && 0 <= hour.value ==> r == (if hour.value % 12 == 0 then 12 else hour.value % 12)
    ensures hour.Some? && hour.value < 0 && hour.value % 12 != 0 ==> -12 < r < 0
  {
    match hour
    case None => 12
    case Some(h) => var m := JsRem(h, 12); if m == 0 then 12 else m
  }

  /** `formatTime(timeString)`: "" for an absent or empty string; otherwise
      the hour before the first ':' in 12-hour form, the text between the
      first and second ':' as it is ("undefined" when there is no ':'),
      and "PM" exactly when the hour parses to 12 or more. */
  function FormatTime(timeString: Option<string>): (r: string)
    ensures !Truthy(timeString) ==> r == ""
  {
    if !Truthy(timeString) then ""
    else
      var parts := Split(timeString.value, ':');
      var minutes := if |parts| > 1 then parts[1] else "undefined";
      var hour := ParseInt(parts[0]);
      var ampm := if hour.Some? && hour.value >= 12 then "PM" else "AM";
      IntToDecimal(Hour12(hour)) + ":" + minutes + " " + ampm
  }

  /** For a time written as digits, ':' and minutes, the display is the
      hour in 1..12, the minutes unchanged, and the suffix PM exactly from
      hour 12 on. */
  lemma FormatHourMinutes(hours: string, minutes: string)
    requires |hours| > 0 && AllDigits(hours) && ':' !in minutes
    ensures var h := DecimalValue(hours);
            FormatTime(Some(hours + ":" + minutes))
            == IntToDecimal(Hour12(Some(h))) + ":" + minutes + " " + (if h >= 12 then "PM" else "AM")
  {
    assert ':' !in hours by {
      forall i | 0 <= i < |hours|
        ensures hours[i] != ':'
      {
        assert IsDigit(hours[i]);
      }
    }
    SplitHead(hours, ':', minutes);
    SplitNone(minutes, ':');
    var parts := Split(hours + ":" + minutes, ':');
    assert parts[0] == hours && parts[1] == minutes && |parts| > 1;
    ParseDigits(hours);
  }

  /** A non-empty run of digits parses to its value. */
  lemma ParseDigits(hours: string)
    requires |hours| > 0 && AllDigits(hours)
    ensures ParseInt(hours) == Some(DecimalValue(hours))
  {
    assert hours[0] != '-' && hours[0] != '+' by {
      assert IsDigit(hours[0]);
    }
    LeadingDigitsOfDigits(hours);
  }

  /** The display of hour `h` for 0 <= h < 24 with two-digit minutes. */
  lemma FormatClock(h: nat, hours: string, minutes: string)
    requires h < 24 && |hours| > 0 && AllDigits(hours) && DecimalValue(hours) == h && ':' !in minutes
    ensures FormatTime(Some(hours + ":" + minutes))
            == NatToDecimal(if h % 12 == 0 then 12 else h % 12) + ":" + minutes + " " + (if h >= 12 then "PM" else "AM")
  {
    FormatHourMinutes(hours, minutes);
  }

  /** The value of a two-digit string. */
  lemma TwoDigitValue(hours: string)
    requires |hours| == 2 && IsDigit(hours[0]) && IsDigit(hours[1])
    ensures AllDigits(hours) && DecimalValue(hours) == DigitValue(hours[0]) * 10 + DigitValue(hours[1])
  {
    assert hours[..1][..0] == [];
    assert DecimalValue(hours[..1]) == DigitValue(hours[0]);
  }

  /** One menu entry: the value "hh:00" displays as the hour in 12-hour
      form with its suffix. */
  lemma ShowsSlot(hours: string, h: nat, shown: string)
    requires |hours| == 2 && IsDigit(hours[0]) && IsDigit(hours[1])
    requires DigitValue(hours[0]) * 10 + DigitValue(hours[1]) == h && h < 24
    requires shown == NatToDecimal(if h % 12 == 0 then 12 else h % 12) + ":00 " + (if h >= 12 then "PM" else "AM")
    ensures FormatTime(Some(hours + ":00")) == shown
  {
    TwoDigitValue(hours);
    FormatClock(h, hours, "00");
    assert hours + ":00" == hours + ":" + "00";
    assert NatToDecimal(if h % 12 == 0 then 12 else h % 12) + ":00 " == NatToDecimal(if h % 12 == 0 then 12 else h % 12) + ":" + "00" + " ";
  }

  /** The 9:00 and 10:00 entries. */
  lemma NineAndTenDisplay(i: nat)
    requires i == 0 || i == 1
    ensures FormatTime(Some(ProductModal.TimeOptions[i].value)) == ProductModal.TimeOptions[i].shown
  {
    var o := ProductModal.TimeOptions[i];
    if i == 0 {
      assert NatToDecimal(9) == "9";
      assert o.value == "09" + ":00";
      ShowsSlot("09", 9, o.shown);
    } else {
      assert NatToDecimal(10) == "10";
      assert o.value == "10" + ":00";
      ShowsSlot("10", 10, o.shown);
    }
  }

  /** The 11:00 and 13:00 entries. */
  lemma ElevenAndOneDisplay(i: nat)
    requires i == 2 || i == 3
    ensures FormatTime(Some(ProductModal.TimeOptions[i].value)) == ProductModal.TimeOptions[i].shown
  {
    var o := ProductModal.TimeOptions[i];
    if i == 2 {
      assert NatToDecimal(11) == "11";
      assert o.value == "11" + ":00";
      ShowsSlot("11", 11, o.shown);
    } else {
      assert NatToDecimal(1) == "1";
      assert o.value == "13" + ":00";
      ShowsSlot("13", 13, o.shown);
    }
  }

  /** The 14:00 and 15:00 entries. */
  lemma TwoAndThreeDisplay(i: nat)
    requires i == 4 || i == 5
    ensures FormatTime(Some(ProductModal.TimeOptions[i].value)) == ProductModal.TimeOptions[i].shown
  {
    var o := ProductModal.TimeOptions[i];
    if i == 4 {
      assert NatToDecimal(2) == "2";
      assert o.value == "14" + ":00";
      ShowsSlot("14", 14, o.shown);
    } else {
      assert NatToDecimal(3) == "3";
      assert o.value == "15" + ":00";
      ShowsSlot("15", 15, o.shown);
    }
  }

  /** The 16:00 entry. */
  lemma FourDisplays(i: nat)
    requires i == 6
    ensures FormatTime(Some(ProductModal.TimeOptions[i].value)) == ProductModal.TimeOptions[i].shown
  {
    var o := ProductModal.TimeOptions[i];
    assert NatToDecimal(4) == "4";
    assert o.value == "16" + ":00";
    ShowsSlot("16", 16, o.shown);
  }

  /** Each value of the booking form's time menu is displayed on the
      confirmation page as the text the menu shows for it. */
  lemma TimeOptionDisplaysAsShown(i: nat)
    requires i < |ProductModal.TimeOptions|
    ensures FormatTime(Some(ProductModal.TimeOptions[i].value)) == ProductModal.TimeOptions[i].shown
  {
    if i < 2 {
      NineAndTenDisplay(i);
    } else if i < 4 {
      ElevenAndOneDisplay(i);
    } else if i < 6 {
      TwoAndThreeDisplay(i);
    } else {
      FourDisplays(i);
    }
  }
}

=== FILE: booking_invariant.dfy ===
/** The no-double-booking invariant: which booking operations keep it,
    which can break it, and how it differs from "no two active bookings
    share a slot" when `Confirmed` counts as active. */
module BookingInvariant {
  import opened Wrappers
  import opened Fields
  import opened Tables
  import opened BookingModel
  import opened Bookings

  // ---------------------------------------------------------------------
  // Operations that keep the invariant
  // ---------------------------------------------------------------------

  /** A successful create only adds a `Scheduled` booking to a slot the
      conflict query found free. */
  lemma CreatePreserves(s: Store, req: CreateRequest)
    requires Valid(s) && NoDoubleBooking(s)
    ensures Valid(Create(s, req).store) && NoDoubleBooking(Create(s, req).store)
  {
  }

  /** With date, time and center all supplied the conflict query guards the
      slot the booking moves to, whatever status the update sets. */
  lemma UpdateFullyRescheduledPreserves(s: Store, id: nat, req: UpdateRequest)
    requires NoDoubleBooking(s)
    requires ReschedulesFully(req)
    ensures NoDoubleBooking(Update(s, id, req).store)
  {
  }

  /** Cancelling only takes a booking out of `Scheduled`. */
  lemma CancelPreserves(s: Store, id: nat)
    requires NoDoubleBooking(s)
    ensures NoDoubleBooking(Cancel(s, id).store)
  {
  }

  /** Deleting only removes a booking. */
  lemma DeletePreserves(s: Store, id: nat)
    requires NoDoubleBooking(s)
    ensures NoDoubleBooking(Delete(s, id).store)
  {
  }

  // ---------------------------------------------------------------------
  // Operations that can break it
  // ---------------------------------------------------------------------

  function SampleBooking(center: string, status: Status): Booking {
    Booking(
      Patient("A", "9800000000", "X", "Y", None),
      Dog("Rex", "Lab", Friendly),
      [Vaccine("Rabies", 1)],
      "a@b.com", status, 0, "2025-06-01", "09:00", center)
  }

  const NoChange := UpdateRequest(None, None, None, None, None, None, None)

  /** Moving a booking by its center alone skips the conflict query and
      lands it on a slot another `Scheduled` booking holds. */
  lemma PartialRescheduleCanDoubleBook()
    ensures var s := Table(map[0 := SampleBooking("Main Center", Scheduled),
                               1 := SampleBooking("North Branch", Scheduled)], 2);
            var r := Update(s, 1, NoChange.(vaccinationCenter := Some("Main Center")));
            && NoDoubleBooking(s) && r.result.Success? && !NoDoubleBooking(r.store)
  {
    var s := Table(map[0 := SampleBooking("Main Center", Scheduled),
                       1 := SampleBooking("North Branch", Scheduled)], 2);
    var req := NoChange.(vaccinationCenter := Some("Main Center"));
    assert s.rows[0].vaccinationCenter != s.rows[1].vaccinationCenter;
    assert ApplyUpdate(s.rows[1], req) == Some(SampleBooking("Main Center", Scheduled));
    var r := Update(s, 1, req);
    assert r.store.rows[0] == r.store.rows[1];
  }

  /** Setting a cancelled booking back to `Scheduled` by status alone skips
      the conflict query too. */
  lemma StatusOnlyUpdateCanDoubleBook()
    ensures var s := Table(map[0 := SampleBooking("Main Center", Scheduled),
                               1 := SampleBooking("Main Center", Cancelled)], 2);
            var r := Update(s, 1, NoChange.(status := Some("Scheduled")));
            && NoDoubleBooking(s) && r.result.Success? && !NoDoubleBooking(r.store)
  {
    var s := Table(map[0 := SampleBooking("Main Center", Scheduled),
                       1 := SampleBooking("Main Center", Cancelled)], 2);
    var req := NoChange.(status := Some("Scheduled"));
    assert ApplyUpdate(s.rows[1], req) == Some(SampleBooking("Main Center", Scheduled));
    var r := Update(s, 1, req);
    assert r.store.rows[0] == r.store.rows[1];
  }

  // ---------------------------------------------------------------------
  // Confirmed bookings do not hold their slot
  // ---------------------------------------------------------------------

  /** "No two active bookings share a slot" with `Scheduled` and
      `Confirmed` both active. */
  predicate NoDoubleActive(s: Store) {
    forall i, j | i in s.rows && j in s.rows && Cancellable(s.rows[i].status)
                  && Cancellable(s.rows[j].status) && SlotOf(s.rows[i]) == SlotOf(s.rows[j]) :: i == j
  }

  function SampleRequest(email: string): CreateRequest {
    CreateRequest(
      Some(PatientInput(Some("A"), Some("9800000000"), Some("X"), Some("Y"), None)),
      Some(DogInput(Some("Rex"), Some("Lab"), Some("Friendly"))),
      Some(VaccineList([VaccineInput(Some("Rabies"), Some(1))])),
      Some(email), Some("2025-06-01"), Some("09:00"), Some("Main Center"), None)
  }

  lemma SampleRequestPasses(email: string)
    requires email != ""
    ensures ValidateCreate(SampleRequest(email)).None?
  {
    var req := SampleRequest(email);
    TopLevelMissingExact(req);
    MissingEmpty(PatientChecks(req.patient.value));
    MissingEmpty(DogChecks(req.dog.value));
  }

  lemma SampleRequestValid(email: string)
    requires email != ""
    ensures ValidateCreate(SampleRequest(email)).None?
    ensures NewBooking(SampleRequest(email)) == Some(SampleBooking("Main Center", Scheduled).(userEmail := email))
  {
    SampleRequestPasses(email);
    var req := SampleRequest(email);
    assert PatientDoc(req.patient.value) == Some(Patient("A", "9800000000", "X", "Y", None));
    assert DogDoc(req.dog.value) == Some(Dog("Rex", "Lab", Friendly));
    var vs := req.vaccines.value.items;
    assert VaccineDoc(vs[0]) == Some(Vaccine("Rabies", 1));
    var r := VaccinesDoc(vs);
    assert r.Some? && |r.value| == 1 && r.value[0] == Vaccine("Rabies", 1);
    assert r.value == [Vaccine("Rabies", 1)];
  }

  /** A `Confirmed` booking does not stop a new booking of its slot, so a
      create can leave two active bookings in one slot. */
  lemma ConfirmedDoesNotBlock(c: Booking, req: CreateRequest)
    requires c.status == Confirmed && SlotOf(c) == RequestedSlot(req)
    requires ValidateCreate(req).None? && NewBooking(req).Some?
    ensures var s := Table(map[0 := c], 1);
            var r := Create(s, req);
            && NoDoubleActive(s) && r.result.Success? && !NoDoubleActive(r.store)
            && NoDoubleBooking(r.store)
  {
    var s := Table(map[0 := c], 1);
    assert s.rows.Keys == {0};
    assert !Conflict(s, RequestedSlot(req), None);
    var r := Create(s, req);
    var b := NewBooking(req).value;
    assert r.result == Success(Row(1, b));
    assert r.store == Table(map[0 := c, 1 := b], 2);
    ScheduledBesideConfirmed(c, b);
  }

  /** A `Scheduled` and a `Confirmed` booking in one slot break the
      two-state reading of the invariant but not the one the code keeps. */
  lemma ScheduledBesideConfirmed(c: Booking, b: Booking)
    requires c.status == Confirmed && b.status == Scheduled && SlotOf(b) == SlotOf(c)
    ensures var s := Table(map[0 := c, 1 := b], 2);
            !NoDoubleActive(s) && NoDoubleBooking(s)
  {
    var s := Table(map[0 := c, 1 := b], 2);
    assert Cancellable(s.rows[0].status) && Cancellable(s.rows[1].status);
  }

  // ---------------------------------------------------------------------
  // Slot lifecycle
  // ---------------------------------------------------------------------

  /** A second booking of a held slot is refused whatever its other fields;
      cancelling the first booking releases the slot. */
  lemma CancelReleasesSlot()
    ensures var r1 := Create(Empty(), SampleRequest("a@b.com"));
            var r2 := Create(r1.store, SampleRequest("c@d.com"));
            var r3 := Cancel(r1.store, 0);
            var r4 := Create(r3.store, SampleRequest("c@d.com"));
            && r1.result.Success? && r1.result.value.id == 0 && r1.result.value.value.status == Scheduled
            && r2.result == Failure(SlotTaken)
            && r3.result.Success? && r3.result.value.value.status == Cancelled
            && r4.result.Success?
  {
    var s0: Store := Empty();
    SampleRequestValid("a@b.com");
    SampleRequestValid("c@d.com");
    var slot := RequestedSlot(SampleRequest("a@b.com"));
    assert !Conflict(s0, slot, None);
    var r1 := Create(s0, SampleRequest("a@b.com"));
    assert r1.store.rows.Keys == {0};
    assert Blocks(r1.store.rows[0], slot);
    var r3 := Cancel(r1.store, 0);
    assert r3.store.rows.Keys == {0};
    assert !Conflict(r3.store, slot, None);
  }

  /** An update that names the booking's own slot is not refused because of
      the booking itself. */
  lemma UpdateExcludesSelf(s: Store, id: nat, req: UpdateRequest)
    requires NoDoubleBooking(s)
    requires id in s.rows && s.rows[id].status == Scheduled
    requires ReschedulesFully(req) && UpdateSlot(req) == SlotOf(s.rows[id])
    ensures Update(s, id, req).result != Failure(SlotTaken)
  {
  }

  /** Moving to a slot another booking holds is refused. */
  lemma UpdateOntoHeldSlotRefused(s: Store, id: nat, j: nat, req: UpdateRequest)
    requires j in s.rows && j != id && s.rows[j].status == Scheduled
    requires ReschedulesFully(req) && UpdateSlot(req) == SlotOf(s.rows[j])
    ensures Update(s, id, req).result == Failure(SlotTaken)
  {
    assert Blocks(s.rows[j], UpdateSlot(req));
  }

  /** A completed booking cannot be cancelled, and the refusal names its
      status. */
  lemma CancelCompletedRefused(s: Store, id: nat)
    requires id in s.rows && s.rows[id].status == Completed
    ensures Cancel(s, id).result.Failure?
    ensures Cancel(s, id).result.error.Message() == "Cannot cancel a booking that is already Completed"
    ensures Cancel(s, id).store == s
  {
  }
}

=== FILE: booking_model.dfy ===
/** The vaccination-booking document: its typed shape once stored, the
    untyped shapes a request body may carry, and the schema rules
    (`required`, `enum`, `default`) that turn one into the other when the
    document is saved. */
module BookingModel {
  import opened Wrappers
  import opened Fields

  // ---------------------------------------------------------------------
  // Enumerations
  // ---------------------------------------------------------------------

  /** The five booking states of the `status` enum. */
  datatype Status = Scheduled | Confirmed | Completed | Cancelled | NoShow

  /** The text the schema stores for each state. */
  function StatusName(s: Status): string {
    match s
    case Scheduled => "Scheduled"
    case Confirmed => "Confirmed"
    case Completed => "Completed"
    case Cancelled => "Cancelled"
    case NoShow => "No-show"
  }

  /** The enum check: a text is accepted exactly when it names a state. */
  function ParseStatus(t: string): (r: Option<Status>) {
    if t == "Scheduled" then Some(Scheduled)
    else if t == "Confirmed" then Some(Confirmed)
    else if t == "Completed" then Some(Completed)
    else if t == "Cancelled" then Some(Cancelled)
    else if t == "No-show" then Some(NoShow)
    else None
  }

  /** The enum check accepts exactly the five names, each as its state. */
  lemma StatusNames(t: string, s: Status)
    ensures ParseStatus(t) == Some(s) <==> StatusName(s) == t
  {
  }

  /** A new booking is `Scheduled` unless told otherwise. */
  const DefaultStatus: Status := Scheduled

  /** The three values of the dog's `behaviour` enum. */
  datatype Behaviour = Friendly | Playful | Aggressive

  function BehaviourName(b: Behaviour): string {
    match b
    case Friendly => "Friendly"
    case Playful => "Playful"
    case Aggressive => "Aggressive"
  }

  function ParseBehaviour(t: string): (r: Option<Behaviour>) {
    if t == "Friendly" then Some(Friendly)
    else if t == "Playful" then Some(Playful)
    else if t == "Aggressive" then Some(Aggressive)
    else None
  }

  /** The enum check accepts exactly the three names, each as its value. */
  lemma BehaviourNames(t: string, b: Behaviour)
    ensures ParseBehaviour(t) == Some(b) <==> BehaviourName(b) == t
  {
  }

  // ---------------------------------------------------------------------
  // Stored documents
  // ---------------------------------------------------------------------

  datatype Patient = Patient(name: string, phoneNumber: string, city: string, address: string,
                             specialInstructions: Option<string>)

  datatype Dog = Dog(name: string, breed: string, behaviour: Behaviour)

  datatype Vaccine = Vaccine(name: string, doseNumber: int)

  /** A stored booking.  `createdAt` and the id are the collection's
      counter, see the `Tables` module. */
  datatype Booking = Booking(
    patient: Patient,
    dog: Dog,
    vaccines: seq<Vaccine>,
    userEmail: string,
    status: Status,
    totalAmount: int,
    appointmentDate: string,
    appointmentTime: string,
    vaccinationCenter: string)

  /** The triple a booking occupies. */
  datatype Slot = Slot(date: string, time: string, center: string)

  function SlotOf(b: Booking): Slot {
    Slot(b.appointmentDate, b.appointmentTime, b.vaccinationCenter)
  }

  // ---------------------------------------------------------------------
  // Request-body shapes (every field may be absent)
  // ---------------------------------------------------------------------

  datatype PatientInput = PatientInput(name: Option<string>, phoneNumber: Option<string>,
                                       city: Option<string>, address: Option<string>,
                                       specialInstructions: Option<string>)

  datatype DogInput = DogInput(name: Option<string>, breed: Option<string>, behaviour: Option<string>)

  datatype VaccineInput = VaccineInput(name: Option<string>, doseNumber: Option<int>)

  /** A truthy `vaccines` value: an array, or something that is not one. */
  datatype VaccinesInput = VaccineList(items: seq<VaccineInput>) | NotAList

  // ---------------------------------------------------------------------
  // Schema validation on save
  // ---------------------------------------------------------------------

  /** The patient sub-document: name, phoneNumber, city and address are
      required (a required string may not be empty); specialInstructions
      is optional and kept as given. */
  function PatientDoc(p: PatientInput): (r: Option<Patient>)
    ensures r.Some? <==> Truthy(p.name) && Truthy(p.phoneNumber) && Truthy(p.city) && Truthy(p.address)
    ensures r.Some? ==> r.value == Patient(p.name.value, p.phoneNumber.value, p.city.value,
                                           p.address.value, p.specialInstructions)
  {
    if Truthy(p.name) && Truthy(p.phoneNumber) && Truthy(p.city) && Truthy(p.address) then
      Some(Patient(p.name.value, p.phoneNumber.value, p.city.value, p.address.value, p.specialInstructions))
    else None
  }

  /** The dog sub-document: name and breed required, behaviour required and
      one of the enum's names. */
  function DogDoc(d: DogInput): (r: Option<Dog>)
    ensures r.Some? <==> Truthy(d.name) && Truthy(d.breed) && d.behaviour.Some?
                         && ParseBehaviour(d.behaviour.value).Some?
    ensures r.Some? ==> r.value.name == d.name.value && r.value.breed == d.breed.value
                        && BehaviourName(r.value.behaviour) == d.behaviour.value
  {
    if Truthy(d.name) && Truthy(d.breed) && d.behaviour.Some? then
      match ParseBehaviour(d.behaviour.value)
      case Some(b) => Some(Dog(d.name.value, d.breed.value, b))
      case None => None
    else None
  }

  /** One vaccine entry: a non-empty name and some dose number. */
  function VaccineDoc(v: VaccineInput): (r: Option<Vaccine>)
    ensures r.Some? <==> Truthy(v.name) && v.doseNumber.Some?
    ensures r.Some? ==> r.value == Vaccine(v.name.value, v.doseNumber.value)
  {
    if Truthy(v.name) && v.doseNumber.Some? then Some(Vaccine(v.name.value, v.doseNumber.value)) else None
  }

  /** The vaccine array: every entry must be a valid vaccine.  The schema
      itself accepts an empty array. */
  function VaccinesDoc(vs: seq<VaccineInput>): (r: Option<seq<Vaccine>>)
    ensures r.Some? <==> forall i | 0 <= i < |vs| :: VaccineDoc(vs[i]).Some?
    ensures r.Some? ==> |r.value| == |vs|
    ensures r.Some? ==> forall i | 0 <= i < |vs| :: r.value[i] == VaccineDoc(vs[i]).value
  {
    if |vs| == 0 then Some([])
    else
      var head :- VaccineDoc(vs[0]);
      var tail :- VaccinesDoc(vs[1..]);
      assert forall i | 1 <= i < |vs| :: vs[i] == vs[1..][i - 1];
      Some([head] + tail)
  }

  /** The schema accepts an empty vaccine list. */
  lemma EmptyVaccinesAccepted()
    ensures VaccinesDoc([]) == Some([])
  {
  }
}

=== FILE: bookings.dfy ===
/** The vaccination-booking controller: create, read, update, cancel,
    delete and list, over a collection of bookings.  Every operation
    returns the collection after the call together with the response. */
module Bookings {
  import opened Wrappers
  import opened Fields
  import opened Tables
  import opened BookingModel

  type Store = Table<Booking>

  /** The error responses, each with its HTTP status code. */
  datatype Error =
    | EmailRequired
    | MissingFields(message: string, fields: seq<string>)
    | VaccinesNotNonEmpty
    | SlotTaken
    | NotFound
    | CannotCancel(current: Status)
    | StoreRejected(message: string)
  {
    function Code(): int {
      match this
      case NotFound => 404
      case StoreRejected(_) => 500
      case _ => 400
    }

    function Message(): string {
      match this
      case EmailRequired => "Email is required"
      case MissingFields(m, _) => m
      case VaccinesNotNonEmpty => "Vaccines must be a non-empty array"
      case SlotTaken => SlotTakenMessage
      case NotFound => "Vaccination booking not found"
      case CannotCancel(s) => "Cannot cancel a booking that is already " + StatusName(s)
      case StoreRejected(m) => m
    }
  }

  const SlotTakenMessage := "This " + "time slot is already booked" + ". Please select another time."

  /** The collection after a call, and what the call answered. */
  datatype Reply<T> = Reply(store: Store, result: Result<T, Error>)

  // ---------------------------------------------------------------------
  // Slot conflicts
  // ---------------------------------------------------------------------

  /** A booking holds a slot only while it is `Scheduled`. */
  predicate Blocks(b: Booking, slot: Slot) {
    b.status == Scheduled && SlotOf(b) == slot
  }

  /** The conflict query: some booking other than `exclude` holds `slot`. */
  predicate Conflict(s: Store, slot: Slot, exclude: Option<nat>) {
    exists id | id in s.rows :: exclude != Some(id) && Blocks(s.rows[id], slot)
  }

  /** The headline invariant: no two bookings are `Scheduled` in one slot. */
  predicate NoDoubleBooking(s: Store) {
    forall i, j | i in s.rows && j in s.rows && s.rows[i].status == Scheduled
                  && s.rows[j].status == Scheduled && SlotOf(s.rows[i]) == SlotOf(s.rows[j]) :: i == j
  }

  // ---------------------------------------------------------------------
  // Create
  // ---------------------------------------------------------------------

  datatype CreateRequest = CreateRequest(
    patient: Option<PatientInput>,
    dog: Option<DogInput>,
    vaccines: Option<VaccinesInput>,
    userEmail: Option<string>,
    appointmentDate: Option<string>,
    appointmentTime: Option<string>,
    vaccinationCenter: Option<string>,
    totalAmount: Option<int>)

  /** The top-level presence tests, in the order the controller runs them.
      A sub-document or an array is truthy whenever it is present. */
  function TopLevelChecks(req: CreateRequest): seq<Check> {
    [ Check("patient", req.patient.Some?),
      Check("dog", req.dog.Some?),
      Check("vaccines", req.vaccines.Some?),
      Check("appointmentDate", Truthy(req.appointmentDate)),
      Check("appointmentTime", Truthy(req.appointmentTime)),
      Check("vaccinationCenter", Truthy(req.vaccinationCenter)) ]
  }

  function PatientChecks(p: PatientInput): seq<Check> {
    [ Check("patient.name", Truthy(p.name)),
      Check("patient.phoneNumber", Truthy(p.phoneNumber)),
      Check("patient.city", Truthy(p.city)),
      Check("patient.address", Truthy(p.address)) ]
  }

  function DogChecks(d: DogInput): seq<Check> {
    [ Check("dog.name", Truthy(d.name)),
      Check("dog.breed", Truthy(d.breed)),
      Check("dog.behaviour", Truthy(d.behaviour)) ]
  }

  /** The top-level missing list names exactly the absent fields, in the
      order patient, dog, vaccines, appointmentDate, appointmentTime,
      vaccinationCenter. */
  lemma TopLevelMissingExact(req: CreateRequest)
    ensures Missing(TopLevelChecks(req)) ==
              IfAbsent(Check("patient", req.patient.Some?))
              + (IfAbsent(Check("dog", req.dog.Some?))
              + (IfAbsent(Check("vaccines", req.vaccines.Some?))
              + (IfAbsent(Check("appointmentDate", Truthy(req.appointmentDate)))
              + (IfAbsent(Check("appointmentTime", Truthy(req.appointmentTime)))
              + IfAbsent(Check("vaccinationCenter", Truthy(req.vaccinationCenter)))))))
  {
    Missing6(TopLevelChecks(req));
  }

  /** A truthy `vaccines` value passes when it is a non-empty array. */
  predicate NonEmptyList(v: VaccinesInput) {
    v.VaccineList? && |v.items| > 0
  }

  /** The staged request validation: the first failing stage decides the
      error, and `None` means every stage passed. */
  function ValidateCreate(req: CreateRequest): (r: Option<Error>)
    ensures r.None? ==> Truthy(req.userEmail) && req.patient.Some? && req.dog.Some?
                        && req.vaccines.Some? && NonEmptyList(req.vaccines.value)
                        && Truthy(req.appointmentDate) && Truthy(req.appointmentTime)
                        && Truthy(req.vaccinationCenter)
  {
    if !Truthy(req.userEmail) then Some(EmailRequired)
    else
      var top := Missing(TopLevelChecks(req));
      if top != [] then Some(MissingFields("Missing required fields", top))
      else
        TopLevelMissingExact(req);
        var pat := Missing(PatientChecks(req.patient.value));
        if pat != [] then Some(MissingFields("Missing required patient information", pat))
        else
          var dog := Missing(DogChecks(req.dog.value));
          if dog != [] then Some(MissingFields("Missing required dog information", dog))
          else if !NonEmptyList(req.vaccines.value) then Some(VaccinesNotNonEmpty)
          else None
  }

  /** The slot a create request asks for. */
  function RequestedSlot(req: CreateRequest): Slot {
    Slot(req.appointmentDate.GetOr(""), req.appointmentTime.GetOr(""), req.vaccinationCenter.GetOr(""))
  }

  /** The document `new VaccinationBooking({...})` builds from a request
      that passed validation, or `None` when the schema rejects it on save. */
  function NewBooking(req: CreateRequest): Option<Booking>
    requires ValidateCreate(req).None?
  {
    var patient :- PatientDoc(req.patient.value);
    var dog :- DogDoc(req.dog.value);
    var vaccines :- VaccinesDoc(req.vaccines.value.items);
    Some(Booking(patient, dog, vaccines, req.userEmail.value, DefaultStatus, OrZero(req.totalAmount),
                 req.appointmentDate.value, req.appointmentTime.value, req.vaccinationCenter.value))
  }

  /** `POST /api/vaccinations`. */
  function Create(s: Store, req: CreateRequest): (r: Reply<Row<Booking>>)
    ensures r.result.Failure? ==> r.store == s
    ensures !Truthy(req.userEmail) ==> r.result == Failure(EmailRequired)
    ensures r.result.Success? ==>
              var row := r.result.value;
              && row.id == s.next && (Valid(s) ==> row.id !in s.rows && Valid(r.store))
              && r.store.rows == s.rows[row.id := row.value]
              && row.value.status == Scheduled
              && row.value.totalAmount == OrZero(req.totalAmount)
              && row.value.userEmail == req.userEmail.value
              && SlotOf(row.value) == RequestedSlot(req)
              && req.patient.Some? && PatientDoc(req.patient.value) == Some(row.value.patient)
              && req.dog.Some? && DogDoc(req.dog.value) == Some(row.value.dog)
              && req.vaccines.Some? && req.vaccines.value.VaccineList?
              && VaccinesDoc(req.vaccines.value.items) == Some(row.value.vaccines)
    ensures r.result == Failure(SlotTaken) <==>
              ValidateCreate(req).None? && Conflict(s, RequestedSlot(req), None)
  {
    match ValidateCreate(req)
    case Some(e) => Reply(s, Failure(e))
    case None =>
      if Conflict(s, RequestedSlot(req), None) then Reply(s, Failure(SlotTaken))
      else
        match NewBooking(req)
        case None => Reply(s, Failure(StoreRejected("Error creating vaccination booking")))
        case Some(b) => Reply(Insert(s, b), Success(Row(s.next, b)))
  }

  /** Validation passes exactly when the email, every top-level field,
      the required patient and dog fields are present and the vaccines
      form a non-empty array. */
  lemma ValidateCreateNoneIff(req: CreateRequest)
    ensures ValidateCreate(req).None? <==>
              && Truthy(req.userEmail) && req.patient.Some? && req.dog.Some? && req.vaccines.Some?
              && Truthy(req.appointmentDate) && Truthy(req.appointmentTime) && Truthy(req.vaccinationCenter)
              && Truthy(req.patient.value.name) && Truthy(req.patient.value.phoneNumber)
              && Truthy(req.patient.value.city) && Truthy(req.patient.value.address)
              && Truthy(req.dog.value.name) && Truthy(req.dog.value.breed) && Truthy(req.dog.value.behaviour)
              && NonEmptyList(req.vaccines.value)
  {
    if Truthy(req.userEmail) {
      TopLevelMissingExact(req);
      if req.patient.Some? {
        var ps := PatientChecks(req.patient.value);
        MissingEmpty(ps);
        assert ps[0].present == Truthy(req.patient.value.name) && ps[1].present == Truthy(req.patient.value.phoneNumber);
        assert ps[2].present == Truthy(req.patient.value.city) && ps[3].present == Truthy(req.patient.value.address);
      }
      if req.dog.Some? {
        var ds := DogChecks(req.dog.value);
        MissingEmpty(ds);
        assert ds[0].present == Truthy(req.dog.value.name) && ds[1].present == Truthy(req.dog.value.breed);
        assert ds[2].present == Truthy(req.dog.value.behaviour);
      }
    }
  }

  /** Create succeeds exactly when the request carries every field the
      controller and the schema require and no `Scheduled` booking holds
      the slot. */
  lemma CreateSucceedsIff(s: Store, req: CreateRequest)
    ensures Create(s, req).result.Success? <==>
              && Truthy(req.userEmail) && req.patient.Some? && req.dog.Some? && req.vaccines.Some?
              && Truthy(req.appointmentDate) && Truthy(req.appointmentTime) && Truthy(req.vaccinationCenter)
              && Truthy(req.patient.value.name) && Truthy(req.patient.value.phoneNumber)
              && Truthy(req.patient.value.city) && Truthy(req.patient.value.address)
              && Truthy(req.dog.value.name) && Truthy(req.dog.value.breed)
              && req.dog.value.behaviour.Some? && ParseBehaviour(req.dog.value.behaviour.value).Some?
              && NonEmptyList(req.vaccines.value)
              && (forall i | 0 <= i < |req.vaccines.value.items| :: VaccineDoc(req.vaccines.value.items[i]).Some?)
              && !Conflict(s, RequestedSlot(req), None)
  {
    ValidateCreateNoneIff(req);
    if ValidateCreate(req).None? {
      assert ParseBehaviour(req.dog.value.behaviour.value).Some? ==> Truthy(req.dog.value.behaviour);
    }
  }

  /** The nested stages run in order: the patient fields are reported only
      once every top-level field is present, and the dog fields only once
      the patient fields are complete too.  Each stage reports just its own
      empty fields. */
  lemma CreateStagesInOrder(s: Store, req: CreateRequest)
    ensures var r := Create(s, req).result;
            r.Failure? && r.error.MissingFields? && r.error.message == "Missing required patient information" ==>
              && Missing(TopLevelChecks(req)) == [] && req.patient.Some?
              && r.error.fields == Missing(PatientChecks(req.patient.value)) && r.error.fields != []
    ensures var r := Create(s, req).result;
            r.Failure? && r.error.MissingFields? && r.error.message == "Missing required dog information" ==>
              && Missing(TopLevelChecks(req)) == [] && req.patient.Some? && req.dog.Some?
              && Missing(PatientChecks(req.patient.value)) == []
              && r.error.fields == Missing(DogChecks(req.dog.value)) && r.error.fields != []
    ensures var r := Create(s, req).result;
            r == Failure(VaccinesNotNonEmpty) ==>
              && Missing(TopLevelChecks(req)) == [] && req.patient.Some? && req.dog.Some? && req.vaccines.Some?
              && Missing(PatientChecks(req.patient.value)) == [] && Missing(DogChecks(req.dog.value)) == []
              && !NonEmptyList(req.vaccines.value)
  {
    if Truthy(req.userEmail) {
      TopLevelMissingExact(req);
    }
  }

  // ---------------------------------------------------------------------
  // Read
  // ---------------------------------------------------------------------

  /** `GET /api/vaccinations/:id`. */
  function GetById(s: Store, id: nat): (r: Result<Booking, Error>)
    ensures r.Success? <==> id in s.rows
    ensures r.Success? ==> r.value == s.rows[id]
    ensures r.Failure? ==> r.error == NotFound
  {
    match Get(s, id)
    case Some(b) => Success(b)
    case None => Failure(NotFound)
  }

  /** `GET /api/vaccinations`: every booking, newest first. */
  function ListAll(s: Store): (r: seq<Row<Booking>>)
    ensures forall i | 0 <= i < |r| :: r[i].id in s.rows && s.rows[r[i].id] == r[i].value
    ensures forall i, j | 0 <= i < j < |r| :: r[i].id > r[j].id
    ensures Valid(s) ==> forall id | id in s.rows :: Row(id, s.rows[id]) in r
  {
    NewestFirst(s, (b: Booking) => true)
  }

  /** `GET /api/users/:userEmail/vaccinations`: exactly the bookings of that
      user, newest first. */
  function ListByUser(s: Store, email: Option<string>): (r: Result<seq<Row<Booking>>, Error>)
    ensures !Truthy(email) <==> r == Failure(EmailRequired)
    ensures r.Success? <==> Truthy(email)
    ensures r.Success? ==> forall i | 0 <= i < |r.value| ::
              r.value[i].id in s.rows && s.rows[r.value[i].id] == r.value[i].value
              && r.value[i].value.userEmail == email.value
    ensures r.Success? ==> forall i, j | 0 <= i < j < |r.value| :: r.value[i].id > r.value[j].id
    ensures r.Success? && Valid(s) ==> forall id | id in s.rows && s.rows[id].userEmail == email.value ::
              Row(id, s.rows[id]) in r.value
  {
    if !Truthy(email) then Failure(EmailRequired)
    else Success(NewestFirst(s, (b: Booking) => b.userEmail == email.value))
  }

  // ---------------------------------------------------------------------
  // Update
  // ---------------------------------------------------------------------

  datatype UpdateRequest = UpdateRequest(
    patient: Option<PatientInput>,
    dog: Option<DogInput>,
    vaccines: Option<VaccinesInput>,
    status: Option<string>,
    appointmentDate: Option<string>,
    appointmentTime: Option<string>,
    vaccinationCenter: Option<string>)

  /** All three schedule fields are supplied, so the conflict query runs. */
  predicate ReschedulesFully(req: UpdateRequest) {
    Truthy(req.appointmentDate) && Truthy(req.appointmentTime) && Truthy(req.vaccinationCenter)
  }

  function UpdateSlot(req: UpdateRequest): Slot {
    Slot(req.appointmentDate.GetOr(""), req.appointmentTime.GetOr(""), req.vaccinationCenter.GetOr(""))
  }

  /** A supplied required string replaces the stored one; the validators
      refuse an empty one. */
  function RequiredText(current: string, supplied: Option<string>): Option<string> {
    match supplied
    case None => Some(current)
    case Some(t) => if t == "" then None else Some(t)
  }

  function VaccinesUpdate(current: seq<Vaccine>, supplied: Option<VaccinesInput>): Option<seq<Vaccine>> {
    match supplied
    case None => Some(current)
    case Some(NotAList) => None
    case Some(VaccineList(items)) => VaccinesDoc(items)
  }

  /** The update validators refuse a supplied field that fails its schema
      rule.  They look only at the supplied fields, never at the stored
      booking. */
  predicate UpdateRefused(req: UpdateRequest) {
    || (req.patient.Some? && PatientDoc(req.patient.value).None?)
    || (req.dog.Some? && DogDoc(req.dog.value).None?)
    || (req.vaccines.Some? && (req.vaccines.value.NotAList? || VaccinesDoc(req.vaccines.value.items).None?))
    || (req.status.Some? && ParseStatus(req.status.value).None?)
    || req.appointmentDate == Some("")
    || req.appointmentTime == Some("")
    || req.vaccinationCenter == Some("")
  }

  /** `findByIdAndUpdate(id, fields, { runValidators: true })`: every
      supplied field overwrites the stored one and must pass its schema
      rule; `None` when a validator refuses.  userEmail and totalAmount
      are not among the updatable fields. */
  function ApplyUpdate(b: Booking, req: UpdateRequest): (r: Option<Booking>)
    ensures r.Some? ==> r.value.userEmail == b.userEmail && r.value.totalAmount == b.totalAmount
    ensures r.Some? && req.patient.None? ==> r.value.patient == b.patient
    ensures r.Some? && req.dog.None? ==> r.value.dog == b.dog
    ensures r.Some? && req.vaccines.None? ==> r.value.vaccines == b.vaccines
    ensures r.Some? && req.status.None? ==> r.value.status == b.status
    ensures r.Some? && req.status.Some? ==> StatusName(r.value.status) == req.status.value
    ensures r.Some? && req.appointmentDate.None? ==> r.value.appointmentDate == b.appointmentDate
    ensures r.Some? && req.appointmentTime.None? ==> r.value.appointmentTime == b.appointmentTime
    ensures r.Some? && req.vaccinationCenter.None? ==> r.value.vaccinationCenter == b.vaccinationCenter
    ensures r.Some? && req.patient.Some? ==> PatientDoc(req.patient.value) == Some(r.value.patient)
    ensures r.Some? && req.dog.Some? ==> DogDoc(req.dog.value) == Some(r.value.dog)
    ensures r.Some? && req.vaccines.Some? ==>
              req.vaccines.value.VaccineList? && VaccinesDoc(req.vaccines.value.items) == Some(r.value.vaccines)
    ensures r.Some? && req.appointmentDate.Some? ==> r.value.appointmentDate == req.appointmentDate.value
    ensures r.Some? && req.appointmentTime.Some? ==> r.value.appointmentTime == req.appointmentTime.value
    ensures r.Some? && req.vaccinationCenter.Some? ==> r.value.vaccinationCenter == req.vaccinationCenter.value
    ensures r.Some? && ReschedulesFully(req) ==> SlotOf(r.value) == UpdateSlot(req)
    ensures r.None? <==> UpdateRefused(req)
  {
    var patient :- if req.patient.Some? then PatientDoc(req.patient.value) else Some(b.patient);
    var dog :- if req.dog.Some? then DogDoc(req.dog.value) else Some(b.dog);
    var vaccines :- VaccinesUpdate(b.vaccines, req.vaccines);
    var status :- if req.status.Some? then ParseStatus(req.status.value) else Some(b.status);
    var date :- RequiredText(b.appointmentDate, req.appointmentDate);
    var time :- RequiredText(b.appointmentTime, req.appointmentTime);
    var center :- RequiredText(b.vaccinationCenter, req.vaccinationCenter);
    StatusNames(req.status.GetOr(""), status);
    Some(b.(patient := patient, dog := dog, vaccines := vaccines, status := status,
            appointmentDate := date, appointmentTime := time, vaccinationCenter := center))
  }

  /** `PUT /api/vaccinations/:id`.  The conflict query runs only when date,
      time and center are all supplied, and first.  The update validators
      run before the booking is looked up, so an invalid update of a
      missing id is a 500, not a 404. */
  function Update(s: Store, id: nat, req: UpdateRequest): (r: Reply<Row<Booking>>)
    ensures r.result.Failure? ==> r.store == s
    ensures r.result == Failure(SlotTaken) <==> ReschedulesFully(req) && Conflict(s, UpdateSlot(req), Some(id))
    ensures r.result == Failure(StoreRejected("Error updating vaccination booking")) <==>
              !(ReschedulesFully(req) && Conflict(s, UpdateSlot(req), Some(id))) && UpdateRefused(req)
    ensures r.result == Failure(NotFound) <==>
              && !(ReschedulesFully(req) && Conflict(s, UpdateSlot(req), Some(id)))
              && !UpdateRefused(req) && id !in s.rows
    ensures r.result.Success? <==>
              !(ReschedulesFully(req) && Conflict(s, UpdateSlot(req), Some(id))) && !UpdateRefused(req) && id in s.rows
    ensures r.result.Success? ==>
              && id in s.rows && r.result.value.id == id
              && Some(r.result.value.value) == ApplyUpdate(s.rows[id], req)
              && r.store.rows == s.rows[id := r.result.value.value] && r.store.next == s.next
  {
    if ReschedulesFully(req) && Conflict(s, UpdateSlot(req), Some(id)) then Reply(s, Failure(SlotTaken))
    else if UpdateRefused(req) then Reply(s, Failure(StoreRejected("Error updating vaccination booking")))
    else if id !in s.rows then Reply(s, Failure(NotFound))
    else
      match ApplyUpdate(s.rows[id], req)
      case None => Reply(s, Failure(StoreRejected("Error updating vaccination booking")))
      case Some(b) => Reply(Put(s, id, b), Success(Row(id, b)))
  }

  // ---------------------------------------------------------------------
  // Cancel and delete
  // ---------------------------------------------------------------------

  /** The states Cancel accepts. */
  predicate Cancellable(st: Status) {
    st == Scheduled || st == Confirmed
  }

  /** `PATCH /api/vaccinations/:id/cancel`. */
  function Cancel(s: Store, id: nat): (r: Reply<Row<Booking>>)
    ensures r.result.Failure? ==> r.store == s
    ensures id !in s.rows <==> r.result == Failure(NotFound)
    ensures id in s.rows && !Cancellable(s.rows[id].status) <==>
              r.result == Failure(CannotCancel(if id in s.rows then s.rows[id].status else Scheduled))
              && id in s.rows
    ensures r.result.Success? <==> id in s.rows && Cancellable(s.rows[id].status)
    ensures r.result.Success? ==>
              && id in s.rows && Cancellable(s.rows[id].status)
              && r.result.value == Row(id, s.rows[id].(status := Cancelled))
              && r.store.rows == s.rows[id := s.rows[id].(status := Cancelled)]
              && r.store.next == s.next
  {
    if id !in s.rows then Reply(s, Failure(NotFound))
    else
      var b := s.rows[id];
      if !Cancellable(b.status) then Reply(s, Failure(CannotCancel(b.status)))
      else
        var b' := b.(status := Cancelled);
        Reply(Put(s, id, b'), Success(Row(id, b')))
  }

  /** `DELETE /api/vaccinations/:id`. */
  function Delete(s: Store, id: nat): (r: Reply<()>)
    ensures id !in s.rows <==> r.result == Failure(NotFound)
    ensures r.result.Success? <==> id in s.rows
    ensures r.result.Failure? ==> r.store == s
    ensures r.result.Success? ==> r.store.rows == s.rows - {id} && r.store.next == s.next
  {
    if id !in s.rows then Reply(s, Failure(NotFound))
    else Reply(Remove(s, id), Success(()))
  }
}

=== FILE: cart.dfy ===
/** The shopping cart held by the cart context: a list of lines, at most
    one per product id.  Prices are whole numbers of the smallest currency
    unit. */
module Cart {
  import opened Seqs

  /** A cart line: the product as it was added, with a quantity. */
  datatype Line = Line(id: string, name: string, price: int, quantity: int)

  type Cart = seq<Line>

  predicate HasId(c: Cart, id: string) {
    exists i | 0 <= i < |c| :: c[i].id == id
  }

  /** No two lines carry the same product id. */
  predicate UniqueIds(c: Cart) {
    forall i, j | 0 <= i < j < |c| :: c[i].id != c[j].id
  }

  /** `prevItems.map(i => i.id === id ? { ...i, quantity: i.quantity + 1 } : i)`. */
  function Bump(c: Cart, id: string): (r: Cart)
    ensures |r| == |c|
    ensures forall i | 0 <= i < |c| :: r[i].id == c[i].id && r[i].name == c[i].name && r[i].price == c[i].price
    ensures forall i | 0 <= i < |c| :: r[i].quantity == c[i].quantity + (if c[i].id == id then 1 else 0)
  {
    if |c| == 0 then []
    else
      var head := if c[0].id == id then c[0].(quantity := c[0].quantity + 1) else c[0];
      [head] + Bump(c[1..], id)
  }

  /** `addToCart(item)`: a product already in the cart gets one more unit;
      a new one is appended with quantity 1, whatever quantity it carried. */
  function AddToCart(c: Cart, item: Line): (r: Cart)
    ensures HasId(c, item.id) ==> |r| == |c|
    ensures !HasId(c, item.id) ==> r == c + [item.(quantity := 1)]
    ensures forall i | 0 <= i < |c| && c[i].id != item.id :: r[i] == c[i]
    ensures forall i | 0 <= i < |c| && c[i].id == item.id :: r[i] == c[i].(quantity := c[i].quantity + 1)
    ensures UniqueIds(c) ==> UniqueIds(r)
  {
    if HasId(c, item.id) then Bump(c, item.id) else c + [item.(quantity := 1)]
  }

  /** `removeFromCart(id)`: the lines of other products, in their order. */
  function RemoveFromCart(c: Cart, id: string): (r: Cart)
    ensures !HasId(r, id)
    ensures forall l | l in c && l.id != id :: l in r
    ensures SubsequenceOf(r, c)
    ensures UniqueIds(c) ==> UniqueIds(r)
  {
    var r := Filter(c, (l: Line) => l.id != id);
    FilterKeepsUnique(c, (l: Line) => l.id != id);
    r
  }

  /** Removing lines from a cart without duplicate ids cannot create one. */
  lemma {:induction false} FilterKeepsUnique(c: Cart, keep: Line -> bool)
    ensures UniqueIds(c) ==> UniqueIds(Filter(c, keep))
  {
    if |c| > 0 && UniqueIds(c) {
      FilterKeepsUnique(c[1..], keep);
      var rest := Filter(c[1..], keep);
      assert forall l | l in rest :: l in c[1..];
      assert forall l | l in c[1..] :: l.id != c[0].id;
    }
  }

  /** `clearCart()`. */
  function ClearCart(c: Cart): (r: Cart)
    ensures |r| == 0 && UniqueIds(r) && Total(r) == 0
  {
    []
  }

  /** `items.reduce((sum, item) => sum + item.price * item.quantity, 0)`. */
  function Total(c: Cart): int {
    if |c| == 0 then 0 else c[0].price * c[0].quantity + Total(c[1..])
  }

  /** The total of two carts put together is the sum of their totals. */
  lemma {:induction false} TotalAppend(a: Cart, b: Cart)
    ensures Total(a + b) == Total(a) + Total(b)
  {
    if |a| == 0 {
      assert a + b == b;
    } else {
      assert (a + b)[0] == a[0];
      assert (a + b)[1..] == a[1..] + b;
      TotalAppend(a[1..], b);
    }
  }

  /** The price of the line with that id, summed over all such lines. */
  function PriceOf(c: Cart, id: string): int {
    if |c| == 0 then 0 else (if c[0].id == id then c[0].price else 0) + PriceOf(c[1..], id)
  }

  /** What the lines with that id contribute to the total. */
  function Subtotal(c: Cart, id: string): int {
    if |c| == 0 then 0 else (if c[0].id == id then c[0].price * c[0].quantity else 0) + Subtotal(c[1..], id)
  }

  /** Adding a unit of a product raises the total by that product's price:
      the stored line's price when it is already in the cart, the incoming
      item's price when it is new. */
  lemma TotalAfterAdd(c: Cart, item: Line)
    ensures Total(AddToCart(c, item)) == Total(c) + (if HasId(c, item.id) then PriceOf(c, item.id) else item.price)
  {
    if HasId(c, item.id) {
      TotalBump(c, item.id);
    } else {
      TotalAppend(c, [item.(quantity := 1)]);
    }
  }

  lemma {:induction false} TotalBump(c: Cart, id: string)
    ensures Total(Bump(c, id)) == Total(c) + PriceOf(c, id)
  {
    if |c| > 0 {
      TotalBump(c[1..], id);
      assert Bump(c, id)[1..] == Bump(c[1..], id);
    }
  }

  /** In a cart without duplicate ids the price of an id is the price of its
      one line. */
  lemma {:induction false} PriceOfUnique(c: Cart, k: nat)
    requires UniqueIds(c) && k < |c|
    ensures PriceOf(c, c[k].id) == c[k].price
  {
    if k == 0 {
      PriceOfAbsent(c[1..], c[0].id);
    } else {
      PriceOfUnique(c[1..], k - 1);
    }
  }

  lemma {:induction false} PriceOfAbsent(c: Cart, id: string)
    requires !HasId(c, id)
    ensures PriceOf(c, id) == 0
  {
    if |c| > 0 {
      PriceOfAbsent(c[1..], id);
    }
  }

  /** Removing a product lowers the total by exactly what its lines
      contributed. */
  lemma {:induction false} TotalAfterRemove(c: Cart, id: string)
    ensures Total(RemoveFromCart(c, id)) == Total(c) - Subtotal(c, id)
  {
    if |c| > 0 {
      TotalAfterRemove(c[1..], id);
      assert RemoveFromCart(c, id) == Filter(c, (l: Line) => l.id != id);
      assert RemoveFromCart(c[1..], id) == Filter(c[1..], (l: Line) => l.id != id);
    }
  }

  // ---------------------------------------------------------------------
  // Any sequence of cart actions
  // ---------------------------------------------------------------------

  datatype Action = Add(item: Line) | Remove(id: string) | Clear

  function Apply(c: Cart, a: Action): Cart {
    match a
    case Add(item) => AddToCart(c, item)
    case Remove(id) => RemoveFromCart(c, id)
    case Clear => ClearCart(c)
  }

  /** The cart after the actions, first to last. */
  function Run(c: Cart, actions: seq<Action>): Cart
    decreases |actions|
  {
    if |actions| == 0 then c else Run(Apply(c, actions[0]), actions[1..])
  }

  /** Starting from the empty cart, no sequence of add, remove and clear
      actions yields two lines for one product. */
  lemma {:induction false} RunKeepsUnique(c: Cart, actions: seq<Action>)
    requires UniqueIds(c)
    ensures UniqueIds(Run(c, actions))
    decreases |actions|
  {
    if |actions| > 0 {
      RunKeepsUnique(Apply(c, actions[0]), actions[1..]);
    }
  }
}

=== FILE: fields.dfy ===
/** JavaScript truthiness of request-body fields, and the controllers'
    idiom of collecting the names of the missing ones into a list
    (`if (!x) missingFields.push('x')`). */
module Fields {
  import opened Wrappers

  /** `!!x` for an optional string field: present and not the empty string. */
  predicate Truthy(o: Option<string>) {
    o.Some? && o.value != ""
  }

  /** `!!x` for an optional number field: present and not zero. */
  predicate TruthyNumber(o: Option<int>) {
    o.Some? && o.value != 0
  }

  /** `x || 0` for an optional number field. */
  function OrZero(o: Option<int>): (r: int)
    ensures r != 0 <==> TruthyNumber(o)
    ensures TruthyNumber(o) ==> r == o.value
  {
    if TruthyNumber(o) then o.value else 0
  }

  /** One `if (!x) missing.push(name)` line: the name pushed and whether the
      field passed the test. */
  datatype Check = Check(name: string, present: bool)

  /** The names of the checks that failed, in the order the checks are
      written. */
  function Missing(checks: seq<Check>): (r: seq<string>)
    ensures |r| <= |checks|
  {
    if |checks| == 0 then []
    else
      var rest := Missing(checks[1..]);
      if checks[0].present then rest else [checks[0].name] + rest
  }

  /** A name is reported exactly when a check of that name failed. */
  lemma {:induction false} MissingMember(checks: seq<Check>, n: string)
    ensures n in Missing(checks) <==> Check(n, false) in checks
  {
    if |checks| > 0 {
      MissingMember(checks[1..], n);
      assert checks == [checks[0]] + checks[1..];
    }
  }

  /** What one check contributes to a missing list. */
  function IfAbsent(c: Check): seq<string> {
    if c.present then [] else [c.name]
  }

  /** The missing list of a sequence of checks is the concatenation of
      what each check contributes, first to last. */
  lemma {:induction false} MissingConcat(cs: seq<Check>)
    ensures |cs| == 0 ==> Missing(cs) == []
    ensures |cs| > 0 ==> Missing(cs) == IfAbsent(cs[0]) + Missing(cs[1..])
  {
  }

  /** Six checks, spelled out. */
  lemma Missing6(cs: seq<Check>)
    requires |cs| == 6
    ensures Missing(cs) == IfAbsent(cs[0]) + (IfAbsent(cs[1]) + (IfAbsent(cs[2])
                           + (IfAbsent(cs[3]) + (IfAbsent(cs[4]) + IfAbsent(cs[5])))))
  {
    var s5 := cs[5..];
    var s4 := cs[4..];
    var s3 := cs[3..];
    var s2 := cs[2..];
    var s1 := cs[1..];
    assert s5[1..] == [] && s4[1..] == s5 && s3[1..] == s4 && s2[1..] == s3 && s1[1..] == s2 && cs[1..] == s1;
    assert s5[0] == cs[5] && s4[0] == cs[4] && s3[0] == cs[3] && s2[0] == cs[2] && s1[0] == cs[1];
    MissingConcat(s5);
    MissingConcat(s4);
    MissingConcat(s3);
    MissingConcat(s2);
    MissingConcat(s1);
    MissingConcat(cs);
  }

  /** Nothing is reported missing exactly when every check passed. */
  lemma {:induction false} MissingEmpty(checks: seq<Check>)
    ensures Missing(checks) == [] <==> forall i | 0 <= i < |checks| :: checks[i].present
  {
    if |checks| > 0 {
      MissingEmpty(checks[1..]);
      assert forall i | 1 <= i < |checks| :: checks[i] == checks[1..][i - 1];
    }
  }
}

=== FILE: order_model.dfy ===
/** The order document: its status enum, the request-body shapes of its
    customer and product lines, and the schema rules a new order must pass
    when it is saved. */
module OrderModel {
  import opened Wrappers
  import opened Fields

  /** The five order states of the `status` enum. */
  datatype OrderStatus = Pending | Processing | Shipped | Delivered | Cancelled

  function OrderStatusName(s: OrderStatus): string {
    match s
    case Pending => "Pending"
    case Processing => "Processing"
    case Shipped => "Shipped"
    case Delivered => "Delivered"
    case Cancelled => "Cancelled"
  }

  function ParseOrderStatus(t: string): (r: Option<OrderStatus>) {
    if t == "Pending" then Some(Pending)
    else if t == "Processing" then Some(Processing)
    else if t == "Shipped" then Some(Shipped)
    else if t == "Delivered" then Some(Delivered)
    else if t == "Cancelled" then Some(Cancelled)
    else None
  }

  /** The enum check accepts exactly the five names, each as its state. */
  lemma OrderStatusNames(t: string, s: OrderStatus)
    ensures ParseOrderStatus(t) == Some(s) <==> OrderStatusName(s) == t
  {
  }

  /** A new order is `Pending`. */
  const DefaultOrderStatus: OrderStatus := Pending

  /** The customer sub-document as sent; orderNotes is optional. */
  datatype Customer = Customer(name: Option<string>, phoneNumber: Option<string>, city: Option<string>,
                               colony: Option<string>, orderNotes: Option<string>)

  /** One product line as sent. */
  datatype Line = Line(name: Option<string>, quantity: Option<int>, price: Option<int>)

  /** A truthy `products` value: an array, or something that is not one. */
  datatype ProductsInput = ProductList(items: seq<Line>) | ProductsNotAList

  /** The schema's required customer fields (a required string may not be
      empty). */
  predicate CustomerComplete(c: Customer) {
    Truthy(c.name) && Truthy(c.phoneNumber) && Truthy(c.city) && Truthy(c.colony)
  }

  /** A product line the schema accepts: a non-empty name, and some
      quantity and price (a required number may be 0). */
  predicate LineValid(l: Line) {
    Truthy(l.name) && l.quantity.Some? && l.price.Some?
  }

  /** A stored order.  The status is kept as text: an update writes it
      without running the enum validator. */
  datatype Order = Order(customer: Customer, products: seq<Line>, total: int, userEmail: string,
                         status: string)

  /** What a freshly created order always satisfies. */
  predicate WellFormed(o: Order) {
    && CustomerComplete(o.customer)
    && (forall i | 0 <= i < |o.products| :: LineValid(o.products[i]))
    && o.total != 0
    && o.userEmail != ""
    && ParseOrderStatus(o.status).Some?
  }
}

=== FILE: orders.dfy ===
/** The order controller: create, read, update, delete and list, over a
    collection of orders. */
module Orders {
  import opened Wrappers
  import opened Fields
  import opened Tables
  import opened OrderModel

  type Store = Table<Order>

  datatype Error =
    | EmailRequired
    | MissingFields(message: string, fields: seq<string>)
    | ProductsNotNonEmpty
    | NotFound
    | StoreRejected(message: string)
  {
    function Code(): int {
      match this
      case NotFound => 404
      case StoreRejected(_) => 500
      case _ => 400
    }

    function Message(): string {
      match this
      case EmailRequired => "Email is required"
      case MissingFields(m, _) => m
      case ProductsNotNonEmpty => "Products must be a non-empty array"
      case NotFound => "Order not found"
      case StoreRejected(m) => m
    }
  }

  datatype Reply<T> = Reply(store: Store, result: Result<T, Error>)

  // ---------------------------------------------------------------------
  // Create
  // ---------------------------------------------------------------------

  datatype CreateRequest = CreateRequest(
    customer: Option<Customer>,
    products: Option<ProductsInput>,
    total: Option<int>,
    userEmail: Option<string>)

  /** The top-level presence tests.  `total` is tested for truthiness, so
      a total of 0 counts as missing. */
  function TopLevelChecks(req: CreateRequest): seq<Check> {
    [ Check("customer", req.customer.Some?),
      Check("products", req.products.Some?),
      Check("total", TruthyNumber(req.total)) ]
  }

  function CustomerChecks(c: Customer): seq<Check> {
    [ Check("customer.name", Truthy(c.name)),
      Check("customer.phoneNumber", Truthy(c.phoneNumber)),
      Check("customer.city", Truthy(c.city)),
      Check("customer.colony", Truthy(c.colony)) ]
  }

  /** The top-level missing list names exactly the absent fields, in the
      order customer, products, total. */
  lemma TopLevelMissingExact(req: CreateRequest)
    ensures Missing(TopLevelChecks(req)) ==
              IfAbsent(Check("customer", req.customer.Some?))
              + (IfAbsent(Check("products", req.products.Some?))
              + IfAbsent(Check("total", TruthyNumber(req.total))))
  {
    var cs := TopLevelChecks(req);
    assert cs[1..][1..][1..] == [];
    MissingConcat(cs[1..][1..][1..]);
    MissingConcat(cs[1..][1..]);
    MissingConcat(cs[1..]);
    MissingConcat(cs);
  }

  /** The customer stage passes exactly when the schema's required
      customer fields are all non-empty. */
  lemma CustomerStageExact(c: Customer)
    ensures Missing(CustomerChecks(c)) == [] <==> CustomerComplete(c)
  {
    var cs := CustomerChecks(c);
    MissingEmpty(cs);
    assert cs[0].present == Truthy(c.name) && cs[1].present == Truthy(c.phoneNumber);
    assert cs[2].present == Truthy(c.city) && cs[3].present == Truthy(c.colony);
  }

  predicate NonEmptyList(p: ProductsInput) {
    p.ProductList? && |p.items| > 0
  }

  /** The staged request validation; `None` means every stage passed. */
  function ValidateCreate(req: CreateRequest): (r: Option<Error>)
    ensures r.None? ==> && Truthy(req.userEmail) && req.customer.Some? && req.products.Some?
                        && TruthyNumber(req.total) && CustomerComplete(req.customer.value)
                        && NonEmptyList(req.products.value)
  {
    if !Truthy(req.userEmail) then Some(EmailRequired)
    else
      var top := Missing(TopLevelChecks(req));
      if top != [] then Some(MissingFields("Missing required fields", top))
      else
        TopLevelMissingExact(req);
        var cust := Missing(CustomerChecks(req.customer.value));
        if cust != [] then Some(MissingFields("Missing required customer information", cust))
        else
          CustomerStageExact(req.customer.value);
          if !NonEmptyList(req.products.value) then Some(ProductsNotNonEmpty)
          else None
  }

  /** `POST /api/orders`: the order is saved when the request passes the
      controller's stages and every product line passes the schema. */
  function Create(s: Store, req: CreateRequest): (r: Reply<Row<Order>>)
    ensures r.result.Failure? ==> r.store == s
    ensures !Truthy(req.userEmail) ==> r.result == Failure(EmailRequired)
    ensures r.result.Success? ==>
              var row := r.result.value;
              && ValidateCreate(req).None?
              && row.id == s.next && (Valid(s) ==> row.id !in s.rows && Valid(r.store))
              && r.store.rows == s.rows[row.id := row.value]
              && row.value == Order(req.customer.value, req.products.value.items, req.total.value,
                                    req.userEmail.value, OrderStatusName(DefaultOrderStatus))
              && WellFormed(row.value)
    ensures r.result.Success? <==>
              ValidateCreate(req).None?
              && forall i | 0 <= i < |req.products.value.items| :: LineValid(req.products.value.items[i])
  {
    match ValidateCreate(req)
    case Some(e) => Reply(s, Failure(e))
    case None =>
      var items := req.products.value.items;
      if forall i | 0 <= i < |items| :: LineValid(items[i]) then
        var o := Order(req.customer.value, items, req.total.value, req.userEmail.value,
                       OrderStatusName(DefaultOrderStatus));
        Reply(Insert(s, o), Success(Row(s.next, o)))
      else Reply(s, Failure(StoreRejected("Error creating order")))
  }

  /** A total of 0 is reported missing, like an absent one, even though
      the schema would store it. */
  lemma ZeroTotalIsMissing(s: Store, req: CreateRequest)
    requires Truthy(req.userEmail) && req.total == Some(0)
    ensures Create(s, req).result.Failure?
    ensures Create(s, req).result.error.MissingFields?
    ensures "total" in Create(s, req).result.error.fields
    ensures Create(s, req).store == s
  {
    MissingMember(TopLevelChecks(req), "total");
  }

  /** The customer stage runs only once customer, products and total are
      all present, and reports just the empty customer fields. */
  lemma CustomerStageAfterTopLevel(s: Store, req: CreateRequest)
    ensures var r := Create(s, req).result;
            r.Failure? && r.error.MissingFields? && r.error.message == "Missing required customer information" ==>
              && req.customer.Some? && req.products.Some? && TruthyNumber(req.total)
              && r.error.fields == Missing(CustomerChecks(req.customer.value))
              && !CustomerComplete(req.customer.value)
    ensures var r := Create(s, req).result;
            r == Failure(ProductsNotNonEmpty) ==>
              && req.customer.Some? && req.products.Some? && TruthyNumber(req.total)
              && CustomerComplete(req.customer.value) && !NonEmptyList(req.products.value)
  {
    if Truthy(req.userEmail) {
      TopLevelMissingExact(req);
      if req.customer.Some? {
        CustomerStageExact(req.customer.value);
      }
    }
  }

  // ---------------------------------------------------------------------
  // Read
  // ---------------------------------------------------------------------

  /** `GET /api/orders/:id`. */
  function GetById(s: Store, id: nat): (r: Result<Order, Error>)
    ensures r.Success? <==> id in s.rows
    ensures r.Success? ==> r.value == s.rows[id]
    ensures r.Failure? ==> r.error == NotFound
  {
    match Get(s, id)
    case Some(o) => Success(o)
    case None => Failure(NotFound)
  }

  /** `GET /api/orders`: every order, newest first. */
  function ListAll(s: Store): (r: seq<Row<Order>>)
    ensures forall i | 0 <= i < |r| :: r[i].id in s.rows && s.rows[r[i].id] == r[i].value
    ensures forall i, j | 0 <= i < j < |r| :: r[i].id > r[j].id
    ensures Valid(s) ==> forall id | id in s.rows :: Row(id, s.rows[id]) in r
  {
    NewestFirst(s, (o: Order) => true)
  }

  /** `GET /api/users/:userEmail/orders`: exactly that user's orders, newest
      first. */
  function ListByUser(s: Store, email: Option<string>): (r: Result<seq<Row<Order>>, Error>)
    ensures !Truthy(email) <==> r == Failure(EmailRequired)
    ensures r.Success? <==> Truthy(email)
    ensures r.Success? ==> forall i | 0 <= i < |r.value| ::
              r.value[i].id in s.rows && s.rows[r.value[i].id] == r.value[i].value
              && r.value[i].value.userEmail == email.value
    ensures r.Success? ==> forall i, j | 0 <= i < j < |r.value| :: r.value[i].id > r.value[j].id
    ensures r.Success? && Valid(s) ==> forall id | id in s.rows && s.rows[id].userEmail == email.value ::
              Row(id, s.rows[id]) in r.value
  {
    if !Truthy(email) then Failure(EmailRequired)
    else Success(NewestFirst(s, (o: Order) => o.userEmail == email.value))
  }

  // ---------------------------------------------------------------------
  // Update and delete
  // ---------------------------------------------------------------------

  datatype UpdateRequest = UpdateRequest(
    customer: Option<Customer>,
    products: Option<seq<Line>>,
    total: Option<int>,
    status: Option<string>)

  /** `findByIdAndUpdate(id, { customer, products, total, status })`
      without validators: each supplied field overwrites the stored one
      as it is, the others stay. */
  function ApplyUpdate(o: Order, req: UpdateRequest): (r: Order)
    ensures r.userEmail == o.userEmail
    ensures r.customer == req.customer.GetOr(o.customer)
    ensures r.products == req.products.GetOr(o.products)
    ensures r.total == req.total.GetOr(o.total)
    ensures r.status == req.status.GetOr(o.status)
  {
    Order(req.customer.GetOr(o.customer), req.products.GetOr(o.products), req.total.GetOr(o.total),
          o.userEmail, req.status.GetOr(o.status))
  }

  /** `PUT /api/orders/:id`. */
  function Update(s: Store, id: nat, req: UpdateRequest): (r: Reply<Row<Order>>)
    ensures id !in s.rows <==> r.result == Failure(NotFound)
    ensures r.result.Success? <==> id in s.rows
    ensures r.result.Failure? ==> r.store == s
    ensures r.result.Success? ==>
              && id in s.rows && r.result.value == Row(id, ApplyUpdate(s.rows[id], req))
              && r.store.rows == s.rows[id := r.result.value.value] && r.store.next == s.next
  {
    if id !in s.rows then Reply(s, Failure(NotFound))
    else
      var o := ApplyUpdate(s.rows[id], req);
      Reply(Put(s, id, o), Success(Row(id, o)))
  }

  /** `DELETE /api/orders/:id`. */
  function Delete(s: Store, id: nat): (r: Reply<()>)
    ensures id !in s.rows <==> r.result == Failure(NotFound)
    ensures r.result.Success? <==> id in s.rows
    ensures r.result.Failure? ==> r.store == s
    ensures r.result.Success? ==> r.store.rows == s.rows - {id} && r.store.next == s.next
    ensures AllWellFormed(s) ==> AllWellFormed(r.store)
  {
    if id !in s.rows then Reply(s, Failure(NotFound))
    else Reply(Remove(s, id), Success(()))
  }

  // ---------------------------------------------------------------------
  // Well-formedness of the stored orders
  // ---------------------------------------------------------------------

  predicate AllWellFormed(s: Store) {
    forall id | id in s.rows :: WellFormed(s.rows[id])
  }

  /** Create keeps every stored order well formed. */
  lemma CreateKeepsWellFormed(s: Store, req: CreateRequest)
    requires AllWellFormed(s)
    ensures AllWellFormed(Create(s, req).store)
  {
  }

  /** Without validators an update stores a status outside the enum. */
  lemma UpdateStoresUnknownStatus(s: Store, id: nat)
    requires id in s.rows && AllWellFormed(s)
    ensures var r := Update(s, id, UpdateRequest(None, None, None, Some("Lost")));
            r.result.Success? && !AllWellFormed(r.store) && r.store.rows[id].status == "Lost"
  {
    var r := Update(s, id, UpdateRequest(None, None, None, Some("Lost")));
    assert ParseOrderStatus(r.store.rows[id].status).None?;
  }
}

=== FILE: otp.dfy ===
/** The in-memory one-time-password store: a map from the email a request
    named to the code sent and the moment it stops being accepted.  The
    clock is a millisecond count passed in as `now`; the random draw and
    the outcome of mail delivery are parameters too. */
module Otp {
  import opened Wrappers
  import opened Text

  /** A stored code and its expiry time, in milliseconds. */
  datatype Entry = Entry(code: string, expiresAt: int)

  /** Keyed by the request's `email` field as sent; an absent field is a
      key of its own. */
  type OtpStore = map<Option<string>, Entry>

  /** How long a code sent by `sendOtp` stays valid: ten minutes. */
  const SendLifetime: int := 10 * 60 * 1000

  /** `Math.floor(100000 + Math.random() * 900000).toString()`, where
      `draw` is `Math.floor(Math.random() * 900000)`: always a six-digit
      decimal whose value is 100000 + draw. */
  function GenerateOtp(draw: nat): (r: string)
    requires draw < 900000
    ensures |r| == 6 && AllDigits(r) && r[0] != '0'
    ensures DecimalValue(r) == 100000 + draw
    ensures 100000 <= DecimalValue(r) <= 999999
  {
    var r := NatToDecimal(100000 + draw);
    SixDigits(100000 + draw);
    DecimalRoundTrip(100000 + draw);
    r
  }

  /** The response of an endpoint: status code and message. */
  datatype Response = Response(code: int, message: string)

  /** `POST /api/otp/send-otp`: the entry is written before the mail is tried, so
      it is in place whatever the mail outcome. */
  function SendOtp(s: OtpStore, email: Option<string>, draw: nat, now: int, mailOk: bool)
    : (r: (OtpStore, Response))
    requires draw < 900000
    ensures r.0 == s[email := Entry(GenerateOtp(draw), now + SendLifetime)]
    ensures r.1.code == 200 <==> mailOk
    ensures !mailOk ==> r.1 == Response(500, "Failed to send OTP")
  {
    var s' := s[email := Entry(GenerateOtp(draw), now + SendLifetime)];
    if mailOk then (s', Response(200, "OTP sent to your email"))
    else (s', Response(500, "Failed to send OTP"))
  }

  /** The acceptance test of `verifyOtp`: there is an entry, the submitted
      code is the stored string, and the clock has not passed the expiry. */
  predicate Accepts(s: OtpStore, email: Option<string>, otp: Option<string>, now: int) {
    email in s && otp == Some(s[email].code) && now <= s[email].expiresAt
  }

  /** `POST /api/otp/verify-otp`.  It only reads the store. */
  function VerifyOtp(s: OtpStore, email: Option<string>, otp: Option<string>, now: int)
    : (r: (OtpStore, Response))
    ensures r.0 == s
    ensures r.1.code == 200 <==> Accepts(s, email, otp, now)
    ensures email !in s ==> r.1 == Response(400, "Invalid or expired OTP")
    ensures email in s && otp != Some(s[email].code) ==> r.1 == Response(400, "Invalid or expired OTP")
    ensures email in s && now > s[email].expiresAt ==> r.1 == Response(400, "Invalid or expired OTP")
  {
    if email !in s || otp != Some(s[email].code) || now > s[email].expiresAt then
      (s, Response(400, "Invalid or expired OTP"))
    else (s, Response(200, "OTP verified successfully"))
  }

  // ---------------------------------------------------------------------
  // Properties of the store
  // ---------------------------------------------------------------------

  /** A code just sent is accepted up to and including its expiry moment
      and refused one millisecond later. */
  lemma SentCodeLifetime(s: OtpStore, email: Option<string>, draw: nat, now: int, mailOk: bool, t: int)
    requires draw < 900000
    ensures var s' := SendOtp(s, email, draw, now, mailOk).0;
            VerifyOtp(s', email, Some(GenerateOtp(draw)), t).1.code == 200 <==> t <= now + SendLifetime
  {
  }

  /** Verification does not consume the code: a code accepted once is
      accepted again at any later moment up to its expiry. */
  lemma VerifyRepeatable(s: OtpStore, email: Option<string>, otp: Option<string>, t1: int, t2: int)
    requires VerifyOtp(s, email, otp, t1).1.code == 200
    requires t1 <= t2 <= s[email].expiresAt
    ensures VerifyOtp(VerifyOtp(s, email, otp, t1).0, email, otp, t2).1.code == 200
  {
  }

  /** Sending again replaces the earlier code: only the new one is
      accepted, unless the draw repeats it. */
  lemma ResendReplacesCode(s: OtpStore, email: Option<string>, d1: nat, d2: nat, n1: int, n2: int, t: int)
    requires d1 < 900000 && d2 < 900000 && d1 != d2
    ensures var s1 := SendOtp(s, email, d1, n1, true).0;
            var s2 := SendOtp(s1, email, d2, n2, true).0;
            VerifyOtp(s2, email, Some(GenerateOtp(d1)), t).1.code == 400
  {
    assert GenerateOtp(d1) != GenerateOtp(d2) by {
      assert DecimalValue(GenerateOtp(d1)) != DecimalValue(GenerateOtp(d2));
    }
  }

  /** Sending a code for one email leaves every other email's entry. */
  lemma SendLeavesOthers(s: OtpStore, email: Option<string>, other: Option<string>, draw: nat, now: int, mailOk: bool)
    requires draw < 900000 && other != email
    ensures var s' := SendOtp(s, email, draw, now, mailOk).0;
            (other in s' <==> other in s) && (other in s ==> s'[other] == s[other])
  {
  }
}

=== FILE: product_modal.dfy ===
/** The product page's vaccination form: which email it books under, the
    checks its submit runs, and the request it sends to the booking
    endpoint. */
module ProductModal {
  import opened Wrappers
  import opened Fields
  import opened Text
  import opened BookingModel
  import opened Bookings

  /** The center used when the component is given none. */
  const DefaultCenter := "Main Center"

  /** An entry of the time menu: the value sent and the text shown. */
  datatype TimeOption = TimeOption(value: string, shown: string)

  const TimeOptions: seq<TimeOption> := [
    TimeOption("09:00", "9:00 AM"), TimeOption("10:00", "10:00 AM"), TimeOption("11:00", "11:00 AM"),
    TimeOption("13:00", "1:00 PM"), TimeOption("14:00", "2:00 PM"), TimeOption("15:00", "3:00 PM"),
    TimeOption("16:00", "4:00 PM")]

  // ---------------------------------------------------------------------
  // The email the form books under
  // ---------------------------------------------------------------------

  /** A property value of the signed-in user object. */
  datatype Prop = Str(text: string) | NonString

  /** The user object's properties in the order `Object.keys` lists them. */
  type UserObject = seq<(string, Prop)>

  /** `user[key]`: the value of the first property with that name. */
  function Lookup(u: UserObject, key: string): (r: Option<Prop>)
    ensures r.Some? <==> exists i | 0 <= i < |u| :: u[i].0 == key
  {
    if |u| == 0 then None
    else if u[0].0 == key then Some(u[0].1)
    else Lookup(u[1..], key)
  }

  /** The fallback test: a string value containing both '@' and '.'. */
  predicate EmailLike(p: Prop) {
    p.Str? && Contains(p.text, "@") && Contains(p.text, ".")
  }

  /** The position of the first email-like property, or -1. */
  function FirstEmailLike(u: UserObject): (k: int)
    ensures -1 <= k < |u|
    ensures k >= 0 ==> EmailLike(u[k].1)
    ensures forall j | 0 <= j < |u| && (k == -1 || j < k) :: !EmailLike(u[j].1)
  {
    if |u| == 0 then -1
    else if EmailLike(u[0].1) then 0
    else
      var k := FirstEmailLike(u[1..]);
      if k == -1 then -1 else k + 1
  }

  /** `user.email` is a non-empty string. */
  predicate HasDirectEmail(u: UserObject) {
    var e := Lookup(u, "email");
    e.Some? && e.value.Str? && e.value.text != ""
  }

  /** The email effect for a signed-in user: `user.email` when it is a
      non-empty string, otherwise the first email-like property, otherwise
      none. */
  function ResolveEmail(u: UserObject): (r: Option<string>)
    ensures HasDirectEmail(u) ==> r == Some(Lookup(u, "email").value.text)
    ensures !HasDirectEmail(u) ==> (r.None? <==> forall i | 0 <= i < |u| :: !EmailLike(u[i].1))
    ensures !HasDirectEmail(u) && r.Some? ==>
              exists k | 0 <= k < |u| :: u[k].1 == Str(r.value) && EmailLike(u[k].1)
                                         && forall j | 0 <= j < k :: !EmailLike(u[j].1)
    ensures r.Some? ==> r.value != ""
  {
    if HasDirectEmail(u) then Some(Lookup(u, "email").value.text)
    else
      var k := FirstEmailLike(u);
      if k == -1 then None
      else
        Some(u[k].1.text)
  }

  /** The `userEmail` state after the effect: unchanged while nobody is
      signed in. */
  function EmailState(user: Option<UserObject>, previous: Option<string>): (r: Option<string>)
    ensures user.None? ==> r == previous
    ensures user.Some? ==> r == ResolveEmail(user.value)
  {
    match user
    case None => previous
    case Some(u) => ResolveEmail(u)
  }

  // ---------------------------------------------------------------------
  // Submit
  // ---------------------------------------------------------------------

  /** The form's inputs, each the empty string until filled in. */
  datatype Form = Form(
    appointmentDate: string, appointmentTime: string,
    patientName: string, phoneNumber: string, city: string, address: string, specialInstructions: string,
    dogName: string, dogBreed: string, dogBehaviour: string)

  /** The nine required inputs with their labels, in the order they are
      checked. */
  function RequiredChecks(f: Form): seq<Check> {
    [ Check("Appointment Date", f.appointmentDate != ""),
      Check("Appointment Time", f.appointmentTime != ""),
      Check("Patient Name", f.patientName != ""),
      Check("Phone Number", f.phoneNumber != ""),
      Check("City", f.city != ""),
      Check("Address", f.address != ""),
      Check("Dog Name", f.dogName != ""),
      Check("Dog Breed", f.dogBreed != ""),
      Check("Dog Behaviour", f.dogBehaviour != "") ]
  }

  /** `/^\d{10}$/.test(phone.replace(/\D/g, ''))`: ten digits once every
      other character is dropped. */
  predicate PhoneValid(phone: string) {
    |Digits(phone)| == 10
  }

  /** Punctuation and spaces in a phone number never matter. */
  lemma PhoneIgnoresSeparators(a: string, sep: string, b: string)
    requires forall i | 0 <= i < |sep| :: !IsDigit(sep[i])
    ensures PhoneValid(a + sep + b) <==> PhoneValid(a + b)
  {
    DigitsAppend(a + sep, b);
    DigitsAppend(a, sep);
    DigitsAppend(a, b);
    NoDigits(sep);
  }

  lemma {:induction false} NoDigits(s: string)
    requires forall i | 0 <= i < |s| :: !IsDigit(s[i])
    ensures Digits(s) == ""
  {
    if |s| > 0 {
      NoDigits(s[1..]);
    }
  }

  /** `new Date(d).toISOString()` for the date input's YYYY-MM-DD value,
      which the date constructor reads as midnight UTC. */
  function IsoDate(d: string): (r: string)
    ensures |r| > |d| && r[..|d|] == d
  {
    d + "T00:00:00.000Z"
  }

  /** What submitting the form does. */
  datatype Outcome =
    | LoginRequired
    | EmailUnavailable
    | FillOut(labels: seq<string>)
    | BadPhone
    | Send(request: CreateRequest)

  /** The request body the form posts. */
  function Payload(f: Form, email: string, productName: Option<string>, productPrice: Option<int>,
                   center: Option<string>): CreateRequest
  {
    CreateRequest(
      Some(PatientInput(Some(f.patientName), Some(f.phoneNumber), Some(f.city), Some(f.address),
                        Some(f.specialInstructions))),
      Some(DogInput(Some(f.dogName), Some(f.dogBreed), Some(f.dogBehaviour))),
      Some(VaccineList([VaccineInput(productName, Some(1))])),
      Some(email),
      Some(IsoDate(f.appointmentDate)),
      Some(f.appointmentTime),
      Some(center.GetOr(DefaultCenter)),
      Some(OrZero(productPrice)))
  }

  /** `handleSubmit`: sign-in first, then the email, then the nine
      required inputs, then the phone number; only then is a request
      built. */
  function Submit(user: Option<UserObject>, userEmail: Option<string>, f: Form,
                  productName: Option<string>, productPrice: Option<int>, center: Option<string>)
    : (r: Outcome)
    ensures user.None? <==> r == LoginRequired
    ensures user.Some? && !Truthy(userEmail) <==> r == EmailUnavailable
    ensures r.FillOut? ==> r.labels == Missing(RequiredChecks(f)) && r.labels != []
    ensures r == BadPhone ==> Missing(RequiredChecks(f)) == [] && !PhoneValid(f.phoneNumber)
    ensures r.Send? <==> user.Some? && Truthy(userEmail) && Missing(RequiredChecks(f)) == []
                         && PhoneValid(f.phoneNumber)
    ensures r.Send? ==>
              && r.request.userEmail == userEmail
              && r.request.vaccines == Some(VaccineList([VaccineInput(productName, Some(1))]))
              && r.request.totalAmount == Some(if TruthyNumber(productPrice) then productPrice.value else 0)
              && r.request.vaccinationCenter == Some(if center.None? then DefaultCenter else center.value)
              && r.request.appointmentTime == Some(f.appointmentTime)
              && r.request.appointmentDate == Some(IsoDate(f.appointmentDate))
              && r.request.patient == Some(PatientInput(Some(f.patientName), Some(f.phoneNumber), Some(f.city),
                                                        Some(f.address), Some(f.specialInstructions)))
              && r.request.dog == Some(DogInput(Some(f.dogName), Some(f.dogBreed), Some(f.dogBehaviour)))
  {
    if user.None? then LoginRequired
    else if !Truthy(userEmail) then EmailUnavailable
    else
      var missing := Missing(RequiredChecks(f));
      if missing != [] then FillOut(missing)
      else if !PhoneValid(f.phoneNumber) then BadPhone
      else Send(Payload(f, userEmail.value, productName, productPrice, center))
  }

  /** The labels reported are exactly those of the empty inputs. */
  lemma FillOutNamesEmptyInputs(f: Form, name: string)
    ensures name in Missing(RequiredChecks(f)) <==> Check(name, false) in RequiredChecks(f)
  {
    MissingMember(RequiredChecks(f), name);
  }

  /** No label is reported exactly when all nine inputs are filled in. */
  lemma NothingMissingMeansFilled(f: Form)
    ensures Missing(RequiredChecks(f)) == [] <==>
              && f.appointmentDate != "" && f.appointmentTime != "" && f.patientName != ""
              && f.phoneNumber != "" && f.city != "" && f.address != ""
              && f.dogName != "" && f.dogBreed != "" && f.dogBehaviour != ""
  {
    var cs := RequiredChecks(f);
    MissingEmpty(cs);
    assert cs[0].present == (f.appointmentDate != "") && cs[1].present == (f.appointmentTime != "");
    assert cs[2].present == (f.patientName != "") && cs[3].present == (f.phoneNumber != "");
    assert cs[4].present == (f.city != "") && cs[5].present == (f.address != "");
    assert cs[6].present == (f.dogName != "") && cs[7].present == (f.dogBreed != "");
    assert cs[8].present == (f.dogBehaviour != "");
  }

  /** Every request the form sends gets past the booking endpoint's
      presence checks, unless the component was given an empty center. */
  lemma SentRequestPassesValidation(user: Option<UserObject>, userEmail: Option<string>, f: Form,
                                    productName: Option<string>, productPrice: Option<int>, center: Option<string>)
    requires center != Some("")
    ensures var r := Submit(user, userEmail, f, productName, productPrice, center);
            r.Send? ==> ValidateCreate(r.request).None?
  {
    var r := Submit(user, userEmail, f, productName, productPrice, center);
    if r.Send? {
      NothingMissingMeansFilled(f);
      ValidateCreateNoneIff(r.request);
    }
  }

  /** With a behaviour from the form's menu, a product name and a free
      slot, the booking is stored with the price shown (or 0). */
  lemma SentRequestBooks(s: Store, user: Option<UserObject>, userEmail: Option<string>, f: Form,
                         productName: Option<string>, productPrice: Option<int>, center: Option<string>)
    requires center != Some("") && Truthy(productName)
    requires ParseBehaviour(f.dogBehaviour).Some?
    ensures var r := Submit(user, userEmail, f, productName, productPrice, center);
            r.Send? && !Conflict(s, RequestedSlot(r.request), None) ==>
              var c := Create(s, r.request).result;
              c.Success? && c.value.value.totalAmount == OrZero(productPrice)
  {
    var r := Submit(user, userEmail, f, productName, productPrice, center);
    if r.Send? && !Conflict(s, RequestedSlot(r.request), None) {
      var req := r.request;
      NothingMissingMeansFilled(f);
      CreateSucceedsIff(s, req);
      var items := req.vaccines.value.items;
      assert items == [VaccineInput(productName, Some(1))];
      assert VaccineDoc(items[0]).Some?;
      assert req.dog.value.behaviour == Some(f.dogBehaviour);
    }
  }
}

=== FILE: schedule_vaccination.dfy ===
/** The vaccination scheduling page: the request its form posts to the
    booking endpoint, and the message it shows when the request fails. */
module ScheduleVaccination {
  import opened Wrappers
  import opened Fields
  import opened Text
  import opened Tables
  import opened BookingModel
  import opened Bookings

  /** `getVaccineDetails().price`: 50 for a product whose name mentions
      "Basic", 75 for any other. */
  function VaccinePrice(productName: string): (p: int)
    ensures p == 50 <==> Contains(productName, "Basic")
    ensures p == 75 <==> !Contains(productName, "Basic")
  {
    if Contains(productName, "Basic") then 50 else 75
  }

  /** The form's inputs, each the empty string until filled in. */
  datatype Form = Form(
    appointmentDate: string, appointmentTime: string,
    patientName: string, phoneNumber: string, city: string, address: string, specialInstructions: string,
    vaccinationCenter: string)

  /** The signed-in user as the page sees it: `None` when nobody is signed
      in, otherwise the value of `user.email`. */
  type User = Option<Option<string>>

  /** The try block: reading `user.email` of a missing user throws before
      anything is sent; otherwise the request goes out. */
  datatype Attempt = Thrown | Post(request: CreateRequest)

  /** The patient sub-document the form sends. */
  function PatientOf(f: Form): PatientInput {
    PatientInput(Some(f.patientName), Some(f.phoneNumber), Some(f.city), Some(f.address), Some(f.specialInstructions))
  }

  /** The one vaccine entry the form sends: the product with dose 1.  The
      price it also carries is not a schema field. */
  function VaccineOf(productName: string): VaccineInput {
    VaccineInput(Some(productName), Some(1))
  }

  /** `bookingData` in `handleSubmit`, as the page builds it: there is no
      `dog` field. */
  function BookingData(user: User, f: Form, productName: string): (r: Attempt)
    ensures r.Thrown? <==> user.None?
    ensures r.Post? ==> r.request.dog.None? && r.request.userEmail == user.value
    ensures r.Post? ==> r.request.totalAmount == Some(VaccinePrice(productName))
                        && r.request.vaccines == Some(VaccineList([VaccineInput(Some(productName), Some(1))]))
  {
    match user
    case None => Thrown
    case Some(email) =>
      Post(CreateRequest(Some(PatientOf(f)), None, Some(VaccineList([VaccineOf(productName)])), email,
                         Some(f.appointmentDate), Some(f.appointmentTime), Some(f.vaccinationCenter),
                         Some(VaccinePrice(productName))))
  }

  /** The request the page evidently means to send: the same body with the
      dog's details, which the booking schema requires. */
  function BookingDataWithDog(user: User, f: Form, dog: DogInput, productName: string): (r: Attempt)
    ensures r.Thrown? <==> user.None?
    ensures r.Post? ==> r.request.dog == Some(dog)
    ensures r.Post? && BookingData(user, f, productName).Post? ==>
              r.request == BookingData(user, f, productName).request.(dog := Some(dog))
  {
    match BookingData(user, f, productName)
    case Thrown => Thrown
    case Post(req) => Post(req.(dog := Some(dog)))
  }

  /** As written, the page never books: whatever the store holds, the
      endpoint refuses its request, and with an email present the refusal
      is the top-level missing-fields error naming "dog". */
  lemma PageNeverBooks(s: Store, user: User, f: Form, productName: string)
    ensures var a := BookingData(user, f, productName);
            a.Post? ==> Create(s, a.request).result.Failure?
    ensures var a := BookingData(user, f, productName);
            a.Post? && Truthy(a.request.userEmail) ==>
              var e := Create(s, a.request).result.error;
              e.MissingFields? && e.message == "Missing required fields" && "dog" in e.fields
  {
    var a := BookingData(user, f, productName);
    if a.Post? {
      CreateSucceedsIff(s, a.request);
      if Truthy(a.request.userEmail) {
        TopLevelMissingExact(a.request);
        MissingMember(TopLevelChecks(a.request), "dog");
      }
    }
  }

  /** With the dog's details added, a completely filled form for a free
      slot is booked, at the page's price. */
  lemma PageWithDogBooks(s: Store, email: string, f: Form, dog: DogInput, productName: string)
    requires email != "" && productName != ""
    requires f.appointmentDate != "" && f.appointmentTime != "" && f.vaccinationCenter != ""
    requires f.patientName != "" && f.phoneNumber != "" && f.city != "" && f.address != ""
    requires Truthy(dog.name) && Truthy(dog.breed) && dog.behaviour.Some? && ParseBehaviour(dog.behaviour.value).Some?
    requires !Conflict(s, Slot(f.appointmentDate, f.appointmentTime, f.vaccinationCenter), None)
    ensures var a := BookingDataWithDog(Some(Some(email)), f, dog, productName);
            var r := Create(s, a.request).result;
            r.Success? && r.value.value.totalAmount == VaccinePrice(productName)
            && r.value.value.userEmail == email
  {
    var a := BookingDataWithDog(Some(Some(email)), f, dog, productName);
    CreateSucceedsIff(s, a.request);
    assert a.request.vaccines.value.items == [VaccineOf(productName)];
  }

  // ---------------------------------------------------------------------
  // The error message
  // ---------------------------------------------------------------------

  /** An error response's status and the body fields the page reads. */
  datatype Response = Response(status: int, message: Option<string>, missingFields: Option<seq<string>>)

  const ConnectionMessage := "Unable to connect to the server. Please try again later."
  const FallbackMessage := "An error occurred during booking"
  const SlotPhrase := "time slot is already booked"

  /** The body the booking endpoint sends with an error. */
  function ResponseOf(e: Error): (r: Response)
    ensures r.status == e.Code() && r.message == Some(e.Message())
    ensures r.missingFields.Some? <==> e.MissingFields?
  {
    Response(e.Code(), Some(e.Message()), if e.MissingFields? then Some(e.fields) else None)
  }

  /** The catch block: the message set as the form's error, `None` when
      the block itself throws (a 400 without a message) and the error
      stays cleared.  `None` for the response means the request got no
      response, or never went out. */
  function ErrorText(err: Option<Response>): (r: Option<string>)
    ensures err.None? ==> r == Some(ConnectionMessage)
    ensures r.None? <==> err.Some? && err.value.status == 400 && err.value.message.None?
    ensures (err.Some? && err.value.status == 400 && err.value.message.Some?
             && Contains(err.value.message.value, SlotPhrase)) ==> r == Some(SlotTakenMessage)
    ensures (err.Some? && !(err.value.status == 400 && (err.value.message.None?
                                  || Contains(err.value.message.value, SlotPhrase)))) ==>
              r == if err.value.missingFields.Some?
                   then Some("Missing required fields: " + Join(err.value.missingFields.value, ", "))
                   else Some(if Truthy(err.value.message) then err.value.message.value else FallbackMessage)
  {
    match err
    case None => Some(ConnectionMessage)
    case Some(resp) =>
      if resp.status == 400 && resp.message.None? then None
      else if resp.status == 400 && Contains(resp.message.value, SlotPhrase) then Some(SlotTakenMessage)
      else if resp.missingFields.Some? then Some("Missing required fields: " + Join(resp.missingFields.value, ", "))
      else Some(if Truthy(resp.message) then resp.message.value else FallbackMessage)
  }

  /** The endpoint's slot-taken answer is shown as the same sentence. */
  lemma SlotTakenShownAsIs()
    ensures ErrorText(Some(ResponseOf(SlotTaken))) == Some(SlotTakenMessage)
  {
    ContainsMiddle("This ", SlotPhrase, ". Please select another time.");
  }

  /** The create endpoint's three missing-fields messages. */
  lemma MissingFieldsMessages(s: Store, req: CreateRequest)
    ensures var r := Create(s, req).result;
            r.Failure? && r.error.MissingFields? ==>
              || r.error.message == "Missing required fields"
              || r.error.message == "Missing required patient information"
              || r.error.message == "Missing required dog information"
  {
  }

  /** None of those messages mentions a booked slot: none has a 'k'. */
  lemma NoSlotPhrase(m: string)
    requires || m == "Missing required fields"
             || m == "Missing required patient information"
             || m == "Missing required dog information"
    ensures !Contains(m, SlotPhrase)
  {
    assert 'k' in SlotPhrase;
    assert 'k' !in m;
    if Contains(m, SlotPhrase) {
      ContainsOnlyItsChars(m, SlotPhrase, 'k');
    }
  }

  /** Every missing-fields answer of the create endpoint is shown as the
      list of the fields it names. */
  lemma MissingFieldsShown(s: Store, req: CreateRequest)
    ensures var r := Create(s, req).result;
            r.Failure? && r.error.MissingFields? ==>
              ErrorText(Some(ResponseOf(r.error))) == Some("Missing required fields: " + Join(r.error.fields, ", "))
  {
    var r := Create(s, req).result;
    if r.Failure? && r.error.MissingFields? {
      MissingFieldsMessages(s, req);
      NoSlotPhrase(r.error.message);
    }
  }

  /** What the page, as written, shows after submitting for a signed-in
      user with an email: the missing-fields message, always naming "dog". */
  lemma PageShowsDogMissing(s: Store, email: string, f: Form, productName: string)
    requires email != ""
    ensures var a := BookingData(Some(Some(email)), f, productName);
            var e := Create(s, a.request).result.error;
            e.MissingFields? && "dog" in e.fields
            && ErrorText(Some(ResponseOf(e))) == Some("Missing required fields: " + Join(e.fields, ", "))
  {
    var a := BookingData(Some(Some(email)), f, productName);
    PageNeverBooks(s, Some(Some(email)), f, productName);
    MissingFieldsShown(s, a.request);
  }
}

=== FILE: search.dfy ===
/** The search page's filtering and sorting of the product list, and the
    normalisation of the price range the user enters.  Prices are whole
    numbers. */
module Search {
  import opened Text
  import opened Seqs

  datatype Product = Product(name: string, description: string, category: string, price: int)

  /** The text filter: the lowercased query occurs in the lowercased name,
      description or category. */
  predicate MatchesQuery(p: Product, query: string) {
    var q := Lower(query);
    Contains(Lower(p.name), q) || Contains(Lower(p.description), q) || Contains(Lower(p.category), q)
  }

  /** The price filter, both bounds included. */
  predicate InRange(p: Product, lo: int, hi: int) {
    lo <= p.price <= hi
  }

  /** The orders the sort menu offers that the model covers. */
  datatype SortKey = Relevance | PriceAsc | PriceDesc

  /** `a` may stand before `b` in the chosen order. */
  predicate InOrder(a: Product, b: Product, descending: bool) {
    if descending then a.price >= b.price else a.price <= b.price
  }

  predicate Sorted(s: seq<Product>, descending: bool) {
    forall i, j | 0 <= i < j < |s| :: InOrder(s[i], s[j], descending)
  }

  /** Places `x` before the first element it may precede. */
  function Insert(x: Product, s: seq<Product>, descending: bool): (r: seq<Product>)
    requires Sorted(s, descending)
    ensures multiset(r) == multiset(s) + multiset{x}
    ensures Sorted(r, descending)
  {
    if |s| == 0 || InOrder(x, s[0], descending) then
      assert forall i | 0 <= i < |s| :: InOrder(x, s[i], descending);
      ConsSorted(x, s, descending);
      [x] + s
    else
      var rest := Insert(x, s[1..], descending);
      HeadPrecedesRest(x, s, rest, descending);
      ConsSorted(s[0], rest, descending);
      assert s == [s[0]] + s[1..];
      [s[0]] + rest
  }

  /** An element that may precede everything in a sorted list may head it. */
  lemma ConsSorted(a: Product, t: seq<Product>, descending: bool)
    requires Sorted(t, descending)
    requires forall i | 0 <= i < |t| :: InOrder(a, t[i], descending)
    ensures Sorted([a] + t, descending)
  {
    var r := [a] + t;
    forall i, j | 0 <= i < j < |r|
      ensures InOrder(r[i], r[j], descending)
    {
      assert r[j] == t[j - 1];
      if i > 0 {
        assert r[i] == t[i - 1];
      }
    }
  }

  /** The head of a sorted list precedes everything in its tail with an
      element added that it may not follow. */
  lemma HeadPrecedesRest(x: Product, s: seq<Product>, rest: seq<Product>, descending: bool)
    requires Sorted(s, descending) && |s| > 0 && !InOrder(x, s[0], descending)
    requires multiset(rest) == multiset(s[1..]) + multiset{x}
    ensures forall i | 0 <= i < |rest| :: InOrder(s[0], rest[i], descending)
  {
    forall i | 0 <= i < |rest|
      ensures InOrder(s[0], rest[i], descending)
    {
      assert rest[i] in multiset(rest);
      if rest[i] != x {
        assert rest[i] in multiset(s[1..]);
        var j :| 0 <= j < |s[1..]| && s[1..][j] == rest[i];
        assert s[j + 1] == rest[i];
      }
    }
  }

  /** `result.sort((a, b) => a.price - b.price)` and its descending twin:
      the same products, ordered by price. */
  function SortByPrice(s: seq<Product>, descending: bool): (r: seq<Product>)
    ensures multiset(r) == multiset(s)
    ensures Sorted(r, descending)
  {
    if |s| == 0 then []
    else
      assert s == [s[0]] + s[1..];
      Insert(s[0], SortByPrice(s[1..], descending), descending)
  }

  /** A product both filters keep. */
  predicate Keep(p: Product, query: string, lo: int, hi: int) {
    MatchesQuery(p, query) && InRange(p, lo, hi)
  }

  /** The products both filters keep, in their order. */
  function Matching(products: seq<Product>, query: string, lo: int, hi: int): (r: seq<Product>)
    ensures forall i | 0 <= i < |r| :: Keep(r[i], query, lo, hi)
    ensures forall p | p in products && Keep(p, query, lo, hi) :: p in r
    ensures SubsequenceOf(r, products)
    ensures forall x :: multiset(r)[x] == if Keep(x, query, lo, hi) then multiset(products)[x] else 0
  {
    var keep := (p: Product) => Keep(p, query, lo, hi);
    FilterMultiset(products, keep);
    Filter(products, keep)
  }

  /** The source filters by text and then by price; one filter by both
      tests gives the same list. */
  lemma TwoFiltersAreMatching(products: seq<Product>, query: string, lo: int, hi: int)
    ensures Filter(Filter(products, (p: Product) => MatchesQuery(p, query)), (p: Product) => InRange(p, lo, hi))
            == Matching(products, query, lo, hi)
  {
    FilterTwice(products, (p: Product) => MatchesQuery(p, query), (p: Product) => InRange(p, lo, hi),
                (p: Product) => Keep(p, query, lo, hi));
  }

  /** Two filters in a row are one filter by both tests. */
  lemma {:induction false} FilterTwice(s: seq<Product>, f: Product -> bool, g: Product -> bool, h: Product -> bool)
    requires forall p :: h(p) == (f(p) && g(p))
    ensures Filter(Filter(s, f), g) == Filter(s, h)
  {
    if |s| > 0 {
      FilterTwice(s[1..], f, g, h);
    }
  }

  /** `filterAndSortProducts(productList)`: the matching products, in
      their original order or sorted by price. */
  function FilterAndSort(products: seq<Product>, query: string, lo: int, hi: int, sortBy: SortKey)
    : (r: seq<Product>)
    ensures forall p | p in r :: Keep(p, query, lo, hi)
    ensures forall p | p in products && Keep(p, query, lo, hi) :: p in r
    ensures multiset(r) == multiset(Matching(products, query, lo, hi))
    ensures sortBy == Relevance ==> SubsequenceOf(r, products)
    ensures sortBy == PriceAsc ==> Sorted(r, false)
    ensures sortBy == PriceDesc ==> Sorted(r, true)
  {
    var m := Matching(products, query, lo, hi);
    var r := match sortBy
             case Relevance => m
             case PriceAsc => SortByPrice(m, false)
             case PriceDesc => SortByPrice(m, true);
    SameMembers(r, m);
    r
  }

  /** Sequences with one multiset have the same members. */
  lemma SameMembers(a: seq<Product>, b: seq<Product>)
    requires multiset(a) == multiset(b)
    ensures forall x :: x in a <==> x in b
  {
    forall x
      ensures x in a <==> x in b
    {
      assert x in a <==> x in multiset(a);
      assert x in b <==> x in multiset(b);
    }
  }

  /** Filtering with relevance order keeps the products in the order they
      came, whatever is filtered out between them. */
  lemma RelevanceKeepsOrder(a: seq<Product>, b: seq<Product>, query: string, lo: int, hi: int)
    ensures FilterAndSort(a + b, query, lo, hi, Relevance)
            == FilterAndSort(a, query, lo, hi, Relevance) + FilterAndSort(b, query, lo, hi, Relevance)
  {
    FilterAppend(a, b, (p: Product) => Keep(p, query, lo, hi));
  }

  /** An empty query keeps every product. */
  lemma EmptyQueryMatchesAll(p: Product)
    ensures MatchesQuery(p, "")
  {
    ContainsEmpty(Lower(p.name));
  }

  /** Upper and lower case in the query make no difference. */
  lemma QueryCaseInsensitive(p: Product, query: string)
    ensures MatchesQuery(p, query) <==> MatchesQuery(p, Lower(query))
  {
    LowerIdempotent(query);
  }

  /** `handlePriceRangeChange(min, max)`: each bound is raised to 0, and
      the two are put in order. */
  function NormaliseRange(min: int, max: int): (r: (int, int))
    ensures 0 <= r.0 <= r.1
    ensures var a := if min < 0 then 0 else min;
            var b := if max < 0 then 0 else max;
            (r.0 == a && r.1 == b) || (r.0 == b && r.1 == a)
  {
    var a := if min < 0 then 0 else min;
    var b := if max < 0 then 0 else max;
    if a <= b then (a, b) else (b, a)
  }

  /** Normalising a normalised range changes nothing. */
  lemma NormaliseIdempotent(min: int, max: int)
    ensures var r := NormaliseRange(min, max);
            NormaliseRange(r.0, r.1) == r
  {
  }
}

=== FILE: seqs.dfy ===
/** `Array.prototype.filter` on sequences, and the order-preserving
    subsequence relation it satisfies. */
module Seqs {

  /** `a` can be obtained from `b` by deleting elements, keeping the order
      of the rest. */
  predicate SubsequenceOf<T(==)>(a: seq<T>, b: seq<T>)
    decreases |b|
  {
    if |a| == 0 then true
    else if |b| == 0 then false
    else if a[0] == b[0] then SubsequenceOf(a[1..], b[1..])
    else SubsequenceOf(a, b[1..])
  }

  /** The elements of `s` that `keep` accepts, in their order. */
  function Filter<T(==)>(s: seq<T>, keep: T -> bool): (r: seq<T>)
    ensures forall i | 0 <= i < |r| :: keep(r[i])
    ensures forall x | x in s && keep(x) :: x in r
    ensures forall x | x in r :: x in s
    ensures SubsequenceOf(r, s)
  {
    if |s| == 0 then []
    else
      var rest := Filter(s[1..], keep);
      assert forall x | x in s && x != s[0] :: x in s[1..];
      if keep(s[0]) then [s[0]] + rest else rest
  }

  /** Filtering a concatenation filters each part: the kept elements stay
      in the order they had. */
  lemma {:induction false} FilterAppend<T>(a: seq<T>, b: seq<T>, keep: T -> bool)
    ensures Filter(a + b, keep) == Filter(a, keep) + Filter(b, keep)
  {
    if |a| == 0 {
      assert a + b == b;
    } else {
      assert (a + b)[0] == a[0];
      assert (a + b)[1..] == a[1..] + b;
      FilterAppend(a[1..], b, keep);
    }
  }

  /** Filtering keeps every copy of a kept element and no copy of a
      dropped one. */
  lemma {:induction false} FilterMultiset<T>(s: seq<T>, keep: T -> bool)
    ensures forall x :: multiset(Filter(s, keep))[x] == if keep(x) then multiset(s)[x] else 0
  {
    if |s| > 0 {
      FilterMultiset(s[1..], keep);
      assert s == [s[0]] + s[1..];
    }
  }
}

=== FILE: tables.dfy ===
/** A document collection as the controllers see it: documents keyed by
    id, each new document taking the next value of a creation counter.
    The counter stands for both the generated id and the `createdAt`
    timestamp, so "newest first" (`sort({ createdAt: -1 })`) is
    "largest id first". */
module Tables {
  import opened Wrappers

  /** A stored document together with its id. */
  datatype Row<T> = Row(id: nat, value: T)

  datatype Table<T> = Table(rows: map<nat, T>, next: nat)

  /** Every stored id was handed out by the counter. */
  predicate Valid<T>(t: Table<T>) {
    forall k | k in t.rows :: k < t.next
  }

  function Empty<T>(): (t: Table<T>)
    ensures Valid(t) && t.rows == map[]
  {
    Table(map[], 0)
  }

  /** `findById`: the document with that id, if any. */
  function Get<T>(t: Table<T>, id: nat): (r: Option<T>)
    ensures r.Some? <==> id in t.rows
    ensures r.Some? ==> r.value == t.rows[id]
  {
    if id in t.rows then Some(t.rows[id]) else None
  }

  /** `save` of a new document: it receives a fresh id, every stored
      document keeps its id and contents. */
  function Insert<T>(t: Table<T>, v: T): (r: Table<T>)
    ensures r.rows.Keys == t.rows.Keys + {t.next}
    ensures r.rows[t.next] == v
    ensures Valid(t) ==> Valid(r) && t.next !in t.rows
    ensures Valid(t) ==> forall k | k in t.rows :: r.rows[k] == t.rows[k]
  {
    Table(t.rows[t.next := v], t.next + 1)
  }

  /** Replacing a stored document leaves the others and the id set alone. */
  function Put<T>(t: Table<T>, id: nat, v: T): (r: Table<T>)
    requires id in t.rows
    ensures r.rows.Keys == t.rows.Keys && r.next == t.next
    ensures r.rows[id] == v
    ensures forall k | k in t.rows && k != id :: r.rows[k] == t.rows[k]
    ensures Valid(t) ==> Valid(r)
  {
    Table(t.rows[id := v], t.next)
  }

  /** `findByIdAndDelete` of a stored id: that document goes, the others
      stay as they were. */
  function Remove<T>(t: Table<T>, id: nat): (r: Table<T>)
    ensures r.rows.Keys == t.rows.Keys - {id} && r.next == t.next
    ensures forall k | k in r.rows :: r.rows[k] == t.rows[k]
    ensures Valid(t) ==> Valid(r)
  {
    Table(t.rows - {id}, t.next)
  }

  /** The documents with id below `k` satisfying `keep`, largest id first. */
  function Collect<T>(rows: map<nat, T>, keep: T -> bool, k: nat): (r: seq<Row<T>>)
    ensures forall i | 0 <= i < |r| ::
      r[i].id < k && r[i].id in rows && rows[r[i].id] == r[i].value && keep(r[i].value)
    ensures forall i, j | 0 <= i < j < |r| :: r[i].id > r[j].id
  {
    if k == 0 then []
    else
      var rest := Collect(rows, keep, k - 1);
      if k - 1 in rows && keep(rows[k - 1]) then [Row(k - 1, rows[k - 1])] + rest else rest
  }

  /** Nothing the filter keeps below `k` is left out. */
  lemma {:induction false} CollectComplete<T>(rows: map<nat, T>, keep: T -> bool, k: nat, id: nat)
    requires id in rows && id < k && keep(rows[id])
    ensures Row(id, rows[id]) in Collect(rows, keep, k)
  {
    if id < k - 1 {
      CollectComplete(rows, keep, k - 1, id);
    }
  }

  /** `find(filter).sort({ createdAt: -1 })`: every stored document the
      filter keeps, each once, newest first. */
  function NewestFirst<T>(t: Table<T>, keep: T -> bool): (r: seq<Row<T>>)
    ensures forall i | 0 <= i < |r| ::
      r[i].id in t.rows && t.rows[r[i].id] == r[i].value && keep(r[i].value)
    ensures forall i, j | 0 <= i < j < |r| :: r[i].id > r[j].id
    ensures Valid(t) ==> forall id | id in t.rows && keep(t.rows[id]) :: Row(id, t.rows[id]) in r
  {
    var r := Collect(t.rows, keep, t.next);
    assert Valid(t) ==> forall id | id in t.rows && keep(t.rows[id]) :: Row(id, t.rows[id]) in r by {
      if Valid(t) {
        forall id | id in t.rows && keep(t.rows[id])
          ensures Row(id, t.rows[id]) in r
        {
          CollectComplete(t.rows, keep, t.next, id);
        }
      }
    }
    r
  }
}

=== FILE: text.dfy ===
/** The string and number primitives the JavaScript sources lean on:
    `String.prototype.includes`, `toLowerCase`, `split`, `join`, the
    regular-expression digit filter `replace(/\D/g, '')`, `parseInt(_, 10)`
    and the decimal rendering of an integer.  Strings are `seq<char>`. */
module Text {
  import opened Wrappers

  // ---------------------------------------------------------------------
  // Substring search (`includes`)
  // ---------------------------------------------------------------------

  /** `t` occurs in `s` starting at index `i`. */
  predicate OccursAt(s: string, t: string, i: int) {
    0 <= i && i + |t| <= |s| && s[i..i + |t|] == t
  }

  /** `s.includes(t)`: `t` occurs in `s` as a contiguous block. */
  predicate Contains(s: string, t: string) {
    exists i | 0 <= i <= |s| - |t| :: OccursAt(s, t, i)
  }

  /** The empty string occurs in every string. */
  lemma ContainsEmpty(s: string)
    ensures Contains(s, "")
  {
    assert OccursAt(s, "", 0);
  }

  /** A string occurs in anything built around it. */
  lemma ContainsMiddle(a: string, t: string, b: string)
    ensures Contains(a + t + b, t)
  {
    var s := a + t + b;
    assert s[|a|..|a| + |t|] == t;
    assert OccursAt(s, t, |a|);
  }

  /** A string can only occur where each of its characters does. */
  lemma ContainsOnlyItsChars(s: string, t: string, c: char)
    requires Contains(s, t) && c in t
    ensures c in s
  {
    var i :| 0 <= i <= |s| - |t| && OccursAt(s, t, i);
    var k :| 0 <= k < |t| && t[k] == c;
    assert s[i + k] == s[i..i + |t|][k];
  }

  // ---------------------------------------------------------------------
  // ASCII case mapping (`toLowerCase`)
  // ---------------------------------------------------------------------

  function LowerChar(c: char): char {
    if 'A' <= c <= 'Z' then (c as int + 32) as char else c
  }

  /** `s.toLowerCase()` restricted to ASCII letters. */
  function Lower(s: string): (r: string)
    ensures |r| == |s|
    ensures forall i | 0 <= i < |s| :: r[i] == LowerChar(s[i])
  {
    seq(|s|, i requires 0 <= i < |s| => LowerChar(s[i]))
  }

  /** Lowering leaves no upper-case ASCII letter behind, so lowering twice
      changes nothing. */
  lemma LowerIdempotent(s: string)
    ensures forall i | 0 <= i < |s| :: !('A' <= Lower(s)[i] <= 'Z')
    ensures Lower(Lower(s)) == Lower(s)
  {
  }

  // ---------------------------------------------------------------------
  // Digits
  // ---------------------------------------------------------------------

  predicate IsDigit(c: char) {
    '0' <= c <= '9'
  }

  predicate AllDigits(s: string) {
    forall i | 0 <= i < |s| :: IsDigit(s[i])
  }

  /** `s.replace(/\D/g, '')`: the digits of `s`, in order. */
  function Digits(s: string): (r: string)
    ensures AllDigits(r)
    ensures |r| <= |s|
  {
    if |s| == 0 then ""
    else if IsDigit(s[0]) then [s[0]] + Digits(s[1..])
    else Digits(s[1..])
  }

  /** Removing non-digits distributes over concatenation. */
  lemma {:induction false} DigitsAppend(a: string, b: string)
    ensures Digits(a + b) == Digits(a) + Digits(b)
  {
    if |a| == 0 {
      assert a + b == b;
    } else {
      assert (a + b)[1..] == a[1..] + b;
      DigitsAppend(a[1..], b);
    }
  }

  /** A string of digits is its own digit filter, and the filter keeps
      every digit of its input. */
  lemma {:induction false} DigitsOfDigits(s: string)
    requires AllDigits(s)
    ensures Digits(s) == s
  {
    if |s| > 0 {
      DigitsOfDigits(s[1..]);
    }
  }

  function DigitChar(d: nat): (c: char)
    requires d < 10
    ensures IsDigit(c)
  {
    ('0' as int + d) as char
  }

  function DigitValue(c: char): (d: nat)
    requires IsDigit(c)
    ensures d < 10 && DigitChar(d) == c
  {
    c as int - '0' as int
  }

  // ---------------------------------------------------------------------
  // Decimal rendering and parsing
  // ---------------------------------------------------------------------

  /** Decimal rendering of a natural number, as `n.toString()` gives it:
      no sign, no leading zero. */
  function NatToDecimal(n: nat): (r: string)
    ensures |r| >= 1 && AllDigits(r)
    ensures r[0] == '0' ==> n == 0
    decreases n
  {
    if n < 10 then [DigitChar(n)] else NatToDecimal(n / 10) + [DigitChar(n % 10)]
  }

  /** Decimal rendering of an integer, with a leading '-' when negative. */
  function IntToDecimal(i: int): (r: string)
    ensures |r| >= 1
    ensures r[0] == '-' <==> i < 0
  {
    if i < 0 then "-" + NatToDecimal(-i) else NatToDecimal(i)
  }

  /** The value of a string of decimal digits. */
  function DecimalValue(s: string): nat
    requires AllDigits(s)
  {
    if |s| == 0 then 0 else 10 * DecimalValue(s[..|s| - 1]) + DigitValue(s[|s| - 1])
  }

  /** Reading back a rendered natural number gives the number. */
  lemma {:induction false} DecimalRoundTrip(n: nat)
    ensures DecimalValue(NatToDecimal(n)) == n
    decreases n
  {
    if n >= 10 {
      var r := NatToDecimal(n);
      assert r[..|r| - 1] == NatToDecimal(n / 10);
      DecimalRoundTrip(n / 10);
    }
  }

  function Pow10(k: nat): (p: nat)
    ensures p >= 1
  {
    if k == 0 then 1 else 10 * Pow10(k - 1)
  }

  /** Every natural number in [10^(k-1), 10^k) renders to exactly k digits. */
  lemma {:induction false} DecimalLength(n: nat, k: nat)
    requires 1 <= k
    requires (if k == 1 then 0 else Pow10(k - 1)) <= n < Pow10(k)
    ensures |NatToDecimal(n)| == k
  {
    if k > 1 {
      if k == 2 {
        assert n / 10 < 10;
      } else {
        assert Pow10(k - 2) <= n / 10 < Pow10(k - 1);
      }
      DecimalLength(n / 10, k - 1);
    }
  }

  /** The six-digit numbers render to six characters. */
  lemma SixDigits(n: nat)
    requires 100000 <= n <= 999999
    ensures |NatToDecimal(n)| == 6
  {
    assert Pow10(5) == 100000 && Pow10(6) == 1000000;
    DecimalLength(n, 6);
  }

  /** The longest prefix of `s` made of digits. */
  function LeadingDigits(s: string): (r: string)
    ensures AllDigits(r)
    ensures |r| <= |s| && r == s[..|r|]
    ensures |r| < |s| ==> !IsDigit(s[|r|])
  {
    if |s| == 0 || !IsDigit(s[0]) then "" else [s[0]] + LeadingDigits(s[1..])
  }

  /** A string of digits is entirely its own leading-digit prefix. */
  lemma {:induction false} LeadingDigitsOfDigits(s: string)
    requires AllDigits(s)
    ensures LeadingDigits(s) == s
  {
    if |s| > 0 {
      LeadingDigitsOfDigits(s[1..]);
    }
  }

  /** `parseInt(s, 10)`: an optional sign followed by the longest run of
      digits; `None` stands for NaN (no digit after the sign). */
  function ParseInt(s: string): (r: Option<int>)
    ensures r.None? <==> |LeadingDigits(if |s| > 0 && (s[0] == '-' || s[0] == '+') then s[1..] else s)| == 0
  {
    var negative := |s| > 0 && s[0] == '-';
    var body := if |s| > 0 && (s[0] == '-' || s[0] == '+') then s[1..] else s;
    var ds := LeadingDigits(body);
    if |ds| == 0 then None
    else
      var v: int := DecimalValue(ds);
      Some(if negative then -v else v)
  }

  /** Parsing a rendered integer gives the integer back. */
  lemma ParseIntRoundTrip(i: int)
    ensures ParseInt(IntToDecimal(i)) == Some(i)
  {
    var n: nat := if i < 0 then -i else i;
    var d := NatToDecimal(n);
    LeadingDigitsOfDigits(d);
    DecimalRoundTrip(n);
    if i < 0 {
      assert ("-" + d)[1..] == d;
    }
  }

  // ---------------------------------------------------------------------
  // split / join
  // ---------------------------------------------------------------------

  /** `parts.join(sep)`. */
  function Join(parts: seq<string>, sep: string): string {
    if |parts| == 0 then ""
    else if |parts| == 1 then parts[0]
    else parts[0] + sep + Join(parts[1..], sep)
  }

  /** `s.split(c)` for a one-character separator: the maximal pieces
      between separators, always at least one. */
  function Split(s: string, c: char): (r: seq<string>)
    ensures |r| >= 1
    ensures forall i | 0 <= i < |r| :: c !in r[i]
  {
    if |s| == 0 then [""]
    else
      var rest := Split(s[1..], c);
      if s[0] == c then [""] + rest
      else [[s[0]] + rest[0]] + rest[1..]
  }

  /** Joining the pieces with the separator rebuilds the string. */
  lemma {:induction false} JoinSplit(s: string, c: char)
    ensures Join(Split(s, c), [c]) == s
  {
    if |s| > 0 {
      var rest := Split(s[1..], c);
      JoinSplit(s[1..], c);
      if s[0] == c {
        assert Split(s, c)[1..] == rest;
      } else if |rest| > 1 {
        assert Split(s, c)[1..] == rest[1..];
        assert Join(rest, [c]) == rest[0] + [c] + Join(rest[1..], [c]);
      }
    }
  }

  /** The first piece is everything before the first separator. */
  lemma {:induction false} SplitHead(a: string, c: char, b: string)
    requires c !in a
    ensures |Split(a + [c] + b, c)| == 1 + |Split(b, c)|
    ensures Split(a + [c] + b, c)[0] == a
    ensures Split(a + [c] + b, c)[1] == Split(b, c)[0]
  {
    if |a| == 0 {
      assert a + [c] + b == [c] + b;
      assert ([c] + b)[1..] == b;
    } else {
      assert (a + [c] + b)[1..] == a[1..] + [c] + b;
      SplitHead(a[1..], c, b);
    }
  }

  /** A piece with no separator splits to itself. */
  lemma {:induction false} SplitNone(a: string, c: char)
    requires c !in a
    ensures Split(a, c) == [a]
  {
    if |a| > 0 {
      SplitNone(a[1..], c);
      assert a == [a[0]] + a[1..];
    }
  }
}

=== FILE: users.dfy ===
/** The user controller over a map of accounts keyed by email.  Password
    hashing is the parameter `hash`, and a password matches a stored hash
    when hashing it gives that hash. */
module Users {
  import opened Wrappers
  import opened Fields
  import opened Otp

  /** A stored account; `password` holds the hash. */
  datatype User = User(name: string, email: string, password: string, role: string)

  /** The accounts, keyed by email: `findOne({ email })` finds at most one. */
  type Accounts = map<string, User>

  /** Every account sits under its own email. */
  predicate Keyed(a: Accounts) {
    forall e | e in a :: a[e].email == e
  }

  /** What the account endpoints send back about a user: never the
      password. */
  datatype UserView = UserView(name: string, email: string, role: string)

  function View(u: User): UserView {
    UserView(u.name, u.email, u.role)
  }

  datatype Error = AllFieldsRequired | EmailAndPasswordRequired | EmailRequired
                 | UserExists | InvalidCredentials | UserNotFound
  {
    function Code(): int {
      if UserNotFound? then 404 else 400
    }

    function Message(): string {
      match this
      case AllFieldsRequired => "All fields are required"
      case EmailAndPasswordRequired => "Email and password are required"
      case EmailRequired => "Email is required"
      case UserExists => "User already exists"
      case InvalidCredentials => "Invalid credentials"
      case UserNotFound => "User not found"
    }
  }

  // ---------------------------------------------------------------------
  // Signup and login
  // ---------------------------------------------------------------------

  /** `POST /user/signup`.  The new account's role is the schema default,
      `defaultRole`. */
  function Signup(a: Accounts, name: Option<string>, email: Option<string>, password: Option<string>,
                  hash: string -> string, defaultRole: string): (r: (Accounts, Result<(), Error>))
    ensures !(Truthy(name) && Truthy(email) && Truthy(password)) ==> r == (a, Failure(AllFieldsRequired))
    ensures Truthy(name) && Truthy(email) && Truthy(password) && email.value in a ==> r == (a, Failure(UserExists))
    ensures r.1.Success? <==> Truthy(name) && Truthy(email) && Truthy(password) && email.value !in a
    ensures r.1.Success? ==>
              && r.0.Keys == a.Keys + {email.value}
              && r.0[email.value] == User(name.value, email.value, hash(password.value), defaultRole)
              && forall e | e in a :: r.0[e] == a[e]
    ensures Keyed(a) ==> Keyed(r.0)
  {
    if !(Truthy(name) && Truthy(email) && Truthy(password)) then (a, Failure(AllFieldsRequired))
    else if email.value in a then (a, Failure(UserExists))
    else (a[email.value := User(name.value, email.value, hash(password.value), defaultRole)], Success(()))
  }

  /** `POST /user/login`. */
  function Login(a: Accounts, email: Option<string>, password: Option<string>, hash: string -> string)
    : (r: Result<UserView, Error>)
    ensures !(Truthy(email) && Truthy(password)) ==> r == Failure(EmailAndPasswordRequired)
    ensures r.Success? <==> Truthy(email) && Truthy(password) && email.value in a
                            && a[email.value].password == hash(password.value)
    ensures r.Success? ==> r.value == View(a[email.value])
  {
    if !(Truthy(email) && Truthy(password)) then Failure(EmailAndPasswordRequired)
    else if email.value !in a then Failure(InvalidCredentials)
    else if a[email.value].password != hash(password.value) then Failure(InvalidCredentials)
    else Success(View(a[email.value]))
  }

  /** An unknown email and a wrong password get the same answer, so a
      failed login does not reveal whether the account exists. */
  lemma LoginHidesExistence(a: Accounts, known: string, unknown: string, password: string, hash: string -> string)
    requires known in a && unknown !in a && known != "" && unknown != "" && password != ""
    requires a[known].password != hash(password)
    ensures Login(a, Some(known), Some(password), hash) == Login(a, Some(unknown), Some(password), hash)
    ensures Login(a, Some(unknown), Some(password), hash) == Failure(InvalidCredentials)
  {
  }

  /** After a successful signup the same email and password log in, and
      the login answers with the name, email and role stored. */
  lemma SignupThenLogin(a: Accounts, name: string, email: string, password: string,
                        hash: string -> string, defaultRole: string)
    requires name != "" && email != "" && password != "" && email !in a
    ensures var a' := Signup(a, Some(name), Some(email), Some(password), hash, defaultRole).0;
            Login(a', Some(email), Some(password), hash) == Success(UserView(name, email, defaultRole))
  {
  }

  // ---------------------------------------------------------------------
  // Password recovery
  // ---------------------------------------------------------------------

  /** How long a code set by `forgotPassword` stays valid: thirty minutes. */
  const ResetLifetime: int := 30 * 60 * 1000

  /** `POST /user/forgot-password`: for a known email, write a fresh code
      valid for thirty minutes into the store `sendOtp` also uses. */
  function ForgotPassword(a: Accounts, otps: OtpStore, email: Option<string>, draw: nat, now: int)
    : (r: (OtpStore, Result<(), Error>))
    requires draw < 900000
    ensures !Truthy(email) ==> r == (otps, Failure(EmailRequired))
    ensures Truthy(email) && email.value !in a ==> r == (otps, Failure(UserNotFound))
    ensures r.1.Success? <==> Truthy(email) && email.value in a
    ensures r.1.Success? ==> r.0 == otps[email := Entry(GenerateOtp(draw), now + ResetLifetime)]
  {
    if !Truthy(email) then (otps, Failure(EmailRequired))
    else if email.value !in a then (otps, Failure(UserNotFound))
    else (otps[email := Entry(GenerateOtp(draw), now + ResetLifetime)], Success(()))
  }

  /** A code from `forgotPassword` is accepted by `verifyOtp` for thirty
      minutes, three times as long as one from `sendOtp`. */
  lemma ForgotPasswordCodeLifetime(a: Accounts, otps: OtpStore, email: string, draw: nat, now: int, t: int)
    requires draw < 900000 && email != "" && email in a
    ensures var s := ForgotPassword(a, otps, Some(email), draw, now).0;
            VerifyOtp(s, Some(email), Some(GenerateOtp(draw)), t).1.code == 200 <==> t <= now + ResetLifetime
    ensures ResetLifetime == 3 * SendLifetime
  {
  }

  /** `POST /user/reset-password`: only the password of that account
      changes.  No code is asked for. */
  function ResetPassword(a: Accounts, email: Option<string>, password: Option<string>, hash: string -> string)
    : (r: (Accounts, Result<(), Error>))
    ensures !(Truthy(email) && Truthy(password)) ==> r == (a, Failure(EmailAndPasswordRequired))
    ensures Truthy(email) && Truthy(password) && email.value !in a ==> r == (a, Failure(UserNotFound))
    ensures r.1.Success? <==> Truthy(email) && Truthy(password) && email.value in a
    ensures r.1.Success? ==>
              && r.0.Keys == a.Keys
              && r.0[email.value] == a[email.value].(password := hash(password.value))
              && forall e | e in a && e != email.value :: r.0[e] == a[e]
    ensures Keyed(a) ==> Keyed(r.0)
  {
    if !(Truthy(email) && Truthy(password)) then (a, Failure(EmailAndPasswordRequired))
    else if email.value !in a then (a, Failure(UserNotFound))
    else (a[email.value := a[email.value].(password := hash(password.value))], Success(()))
  }

  /** After a reset the new password logs in, and the old one no longer
      does unless it hashes to the same value. */
  lemma ResetThenLogin(a: Accounts, email: string, oldPw: string, newPw: string, hash: string -> string)
    requires email in a && email != "" && oldPw != "" && newPw != "" && hash(oldPw) != hash(newPw)
    ensures var a' := ResetPassword(a, Some(email), Some(newPw), hash).0;
            && Login(a', Some(email), Some(newPw), hash) == Success(View(a[email]))
            && Login(a', Some(email), Some(oldPw), hash) == Failure(InvalidCredentials)
  {
  }

  // ---------------------------------------------------------------------
  // Lookups
  // ---------------------------------------------------------------------

  /** `POST /user/find-by-email`. */
  function FindUserByEmail(a: Accounts, email: Option<string>): (r: Result<UserView, Error>)
    ensures !Truthy(email) ==> r == Failure(EmailRequired)
    ensures r.Success? <==> Truthy(email) && email.value in a
    ensures r.Success? ==> r.value == View(a[email.value])
    ensures Truthy(email) && email.value !in a ==> r == Failure(UserNotFound)
  {
    if !Truthy(email) then Failure(EmailRequired)
    else if email.value !in a then Failure(UserNotFound)
    else Success(View(a[email.value]))
  }

  /** `GET /user/users`: every account, with the password left out. */
  function AllUsers(a: Accounts): (r: map<string, UserView>)
    ensures r.Keys == a.Keys
    ensures forall e | e in a :: r[e].name == a[e].name && r[e].email == a[e].email && r[e].role == a[e].role
  {
    map e | e in a :: View(a[e])
  }

  /** `POST /user/check-email`: whether an account has that email. */
  function CheckEmail(a: Accounts, email: Option<string>): (r: Result<bool, Error>)
    ensures !Truthy(email) <==> r == Failure(EmailRequired)
    ensures r.Success? <==> Truthy(email)
    ensures r.Success? ==> (r.value <==> email.value in a)
  {
    if !Truthy(email) then Failure(EmailRequired) else Success(email.value in a)
  }

  /** checkEmail answers true exactly for the emails a signup refuses as
      taken. */
  lemma CheckEmailAgreesWithSignup(a: Accounts, name: string, email: string, password: string,
                                   hash: string -> string, defaultRole: string)
    requires name != "" && email != "" && password != ""
    ensures CheckEmail(a, Some(email)) == Success(true) <==>
            Signup(a, Some(name), Some(email), Some(password), hash, defaultRole).1 == Failure(UserExists)
  {
  }
}

=== FILE: wrappers.dfy ===
/** Option and Result values for the optional request fields and the
    error-or-value replies of the controllers. */
module Wrappers {

  /** A value that may be absent: a request field that was not sent. */
  datatype Option<+T> = None | Some(value: T) {

    /** Lets `:-` stop at an absent value. */
    predicate IsFailure() {
      None?
    }

    function PropagateFailure<U>(): Option<U>
      requires None?
    {
      None
    }

    function Extract(): T
      requires Some?
    {
      value
    }

    /** The carried value, or `default` when absent. */
    function GetOr(default: T): T {
      match this
      case Some(v) => v
      case None => default
    }
  }

  /** Either a successful value or an error. */
  datatype Result<+R, +E> = Success(value: R) | Failure(error: E)
}
